=== FILE: README.md ===
# Storage API branch wrapper: a Dafny model

This project models the core of the Keboola Storage API branch wrapper, a PHP
library that sits in front of the Storage API client:

- `ClientWrapper` resolves the configured branch once. It fetches the project's
  branch listing a single time, keeps every branch by id, finds the default
  branch, and caches one client per branch id. From that cache it answers which
  branch it is on, what the branch is called, whether it is the default, and
  which client to use for tables and files.
- `Branch` is the record the listing is turned into.
- `ClientOptions` is the option bag with fifteen nullable fields. It has two
  validating setters (URL and auth method). `addValuesFrom` merges one bag into
  another, and another method picks out the arguments passed to the client
  constructor.
- `StorageClientPlainFactory` builds a wrapper from its stored options (by
  reference) merged with per-call options.
- `StorageClientRequestFactory` builds a wrapper per HTTP request. The token and
  auth method come from the headers (`Authorization: Bearer …` first, then
  `X-StorageApi-Token`), and so does the run id (the `X-KBC-RunId` header, else
  the configured generator, else `run-` plus a unique suffix).
- `StorageApiToken` is the read-only view over the token-verification record.

The model uses values throughout. The wrapper is a datatype, and every
accessor returns the wrapper's next state together with its result (`Step`).
`minted` counts client objects built, so two clients are the same object
exactly when their serial numbers are equal. `listings` counts fetches of the
branch listing. Option objects live in a small heap (`Store`), so a reference
can be shared, cloned or mutated in place. That is what makes "the factory
never changes the caller's options" and "the plain factory sees later changes
to the caller's object" statements that can be proved.

Modules, one per file:

| file | module | models |
|---|---|---|
| outcome.dfy | `Outcome` | `Option`, `Result`, `ClientException` |
| php.dfy | `Php` | decoded JSON values, `?? null` lookup, `empty()`, `(string)` casts, `ctype_digit`, `str_starts_with` |
| client_options.dfy | `Options` | `ClientOptions` |
| options_store.dfy | `Store` | object identity for option objects |
| branch.dfy | `Branches` | `Branch`, and the branch-listing scan of `resolveBranches` |
| storage_api_token.dfy | `Tokens` | `StorageApiToken` |
| client_wrapper.dfy | `Wrapper` | `ClientWrapper` |
| client_wrapper_properties.dfy | `WrapperProperties` | properties that relate several wrapper calls |
| plain_factory.dfy | `PlainFactory` | `StorageClientPlainFactory` |
| request_factory.dfy | `RequestFactory` | `StorageClientRequestFactory` |

## Model

| member | source | states |
|---|---|---|
| Php.Lookup | src/StorageApiToken.php:75-88 | `$info['k'] ?? null` is absent exactly when no entry with that key exists or the first such entry is null; otherwise it is that first entry's value |
| Php.ParseNatToString | src/StorageApiToken.php:27-35 | the decimal rendering of a non-negative integer is all digits (so it passes `ctype_digit`) and reads back as the same number |
| Options.FieldsDetermine | src/Factory/ClientOptions.php:89-258 | two option objects whose fifteen getters all agree are equal: the getters expose the whole state |
| Options.EmptyIsAllNull | src/Factory/ClientOptions.php:18-37 | an options object built with no arguments has every getter null |
| Options.SetUrl | src/Factory/ClientOptions.php:74-87 | null or a valid URL is stored and nothing else changes; an invalid URL is refused with the `Value "…" is invalid: Storage API URL is not valid.` message; validity is preserved |
| Options.SetAuthMethod | src/Factory/ClientOptions.php:236-253 | succeeds exactly for null, "token" or "oauth", changes only the auth method, and otherwise fails with `authMethod must be "token" or "oauth". "<m>" given.` |
| Options.New | src/Factory/ClientOptions.php:18-37 | construction succeeds exactly when the arguments are valid and then holds exactly those values; a bad URL is reported with the URL setter's message, and with an acceptable URL a bad auth method is reported with the auth-method setter's message |
| Options.SetPlain | src/Factory/ClientOptions.php:94-234 | each plain setter changes only its own field, to the given value, and keeps the object valid |
| Options.AddValuesFrom | src/Factory/ClientOptions.php:55-72 | every field is the other object's value when that is non-null, else the original value |
| Options.AddValuesFromEmpty | src/Factory/ClientOptions.php:55-72 | merging an all-null object changes nothing |
| Options.AddValuesIntoEmpty | src/Factory/ClientOptions.php:55-72 | merging into an all-null object gives a copy of the other object |
| Options.AddValuesFromSelf | src/Factory/ClientOptions.php:55-72 | merging an object into itself changes nothing |
| Options.AddValuesFromAssociative | src/Factory/ClientOptions.php:55-72 | merging b and then c equals merging (b with c merged over it) |
| Options.AddValuesFromPreservesValid | src/Factory/ClientOptions.php:55-72 | merging two valid objects gives a valid object |
| Options.GetClientConstructOptions | src/Factory/ClientOptions.php:39-53 | ten entries in source order, each carrying the current value of its field (null included) |
| Options.ConstructOptionsKeys | src/Factory/ClientOptions.php:39-53 | the keys are exactly url, userAgent, token, backoffMaxTries, retryOnMaintenance, awsRetries, awsDebug, logger, jobPollRetryDelay, authMethod |
| Options.ConstructedToken | src/Factory/ClientOptions.php:39-53 | the constructor arguments carry the configured token under "token" |
| Options.ConstructOptionsIgnoreOtherFields | src/Factory/ClientOptions.php:39-53 | branch id, run id, run-id generator, backend configuration and use-branch-storage do not affect the constructor arguments |
| Store.Clone | src/Factory/StorageClientPlainFactory.php:18-21 | `clone` gives a new object with equal contents and leaves every existing object unchanged |
| Store.Write | src/Factory/StorageClientRequestFactory.php:78-82 | a mutation through one reference changes that object only |
| Branches.NewBranch | src/Branch.php:9-18 | a branch holds the given id, name and default flag, and no client yet |
| Branches.BuildBranchesKeys | src/ClientWrapper.php:147-156 | the map built from the listing has a key exactly when some record's id, cast to string, is that key |
| Branches.BuildBranchesKeepsLast | src/ClientWrapper.php:147-156 | for duplicate ids the map keeps the last record's name and default flag |
| Branches.DefaultBranchIdIsLastDefault | src/ClientWrapper.php:151-153 | the default id is that of the last record flagged default, and there is none exactly when no record is flagged |
| Branches.ScanListing | src/ClientWrapper.php:147-156 | the loop over the listing computes that map and that default id |
| Branches.Resolve | src/ClientWrapper.php:158-170 | fails with "Can not find default branch" exactly when the default id is missing or empty() (such as "0"); otherwise the target is the default id (branch id null or "default") or the configured id, and resolution fails with "Can not resolve branchId" exactly when no record carries the target |
| Branches.ZeroDefaultIdIsMissing | src/ClientWrapper.php:158-160 | a listing whose only default record has the integer id 0 fails with "Can not find default branch", because `(string) 0` is empty() |
| Branches.ResolveSucceeds | src/ClientWrapper.php:158-170 | resolution succeeds exactly when there is a non-empty default id and the target is a listed id |
| Branches.DefaultBranchIsDefault | src/ClientWrapper.php:110-114 | with distinct ids, the branch found as default is flagged default |
| Branches.DuplicateIdHidesDefault | src/ClientWrapper.php:147-156 | with a repeated id, a later record without the flag replaces the default one, so getDefaultBranch returns a branch whose flag is false |
| Wrapper.New | src/ClientWrapper.php:25-28 | a new wrapper holds the options, has built no client, has resolved nothing and has fetched no listing |
| Wrapper.GetBasicClient | src/ClientWrapper.php:30-38 | the first call builds an unbranched client, and later calls return that same object |
| Wrapper.ResolveBranches | src/ClientWrapper.php:138-171 | an already resolved wrapper is returned unchanged; otherwise the listing is fetched once and the branch map, default id and target id are stored, or the resolution error is returned |
| Wrapper.GetBranchId | src/ClientWrapper.php:82-86 | the resolved target id, or the resolution error |
| Wrapper.GetBranch | src/ClientWrapper.php:116-120 | the branch stored under the target id |
| Wrapper.GetBranchName | src/ClientWrapper.php:88-92 | the name of the branch stored under the target id |
| Wrapper.IsDefaultBranch | src/ClientWrapper.php:104-108 | the isDefault flag of the branch stored under the target id |
| Wrapper.IsDevelopmentBranch | src/ClientWrapper.php:98-102 | the negation of isDefaultBranch |
| Wrapper.GetDefaultBranch | src/ClientWrapper.php:110-114 | the branch stored under the default id |
| Wrapper.CacheClient | src/ClientWrapper.php:49-57 | the new client is built from the wrapper's options for that branch and stored in that branch only; ids, keys and every other branch stay as they were |
| Wrapper.GetClientForBranch | src/ClientWrapper.php:40-59 | a non-digit id fails with `Branch ID must be a number` before any resolution; an unknown id fails with `Branch with ID "…" does not exist.`; a cached client is returned as is; otherwise a new client for that branch is built and cached |
| Wrapper.GetBranchClient | src/ClientWrapper.php:61-64 | the client for the resolved target branch |
| Wrapper.GetClientForDefaultBranch | src/ClientWrapper.php:66-69 | the client for the default branch |
| Wrapper.GetTableAndFileStorageClient | src/ClientWrapper.php:74-80 | the branch client when use-branch-storage is true, else the basic client |
| Wrapper.GetToken | src/ClientWrapper.php:127-136 | the token view is built once and then returned unchanged; its record is the branch client's verification answer and its token string is the configured token, read from the "token" argument the branch client was built with |
| Wrapper.GetClientOptionsReadOnly | src/ClientWrapper.php:122-125 | a copy with the wrapper's option values |
| WrapperProperties.ResolvesToDefaultBranch | src/ClientWrapper.php:158-166 | with branch id null or "default", the wrapper is on the last branch flagged default, which is the default and not a development branch, provided no later record repeats that id |
| WrapperProperties.DefaultBranchIsLastDefaultRecord | src/ClientWrapper.php:110-114 | when resolution succeeds, getDefaultBranch returns the branch built from the last record flagged default (its id, name and flag), provided no later record repeats that id |
| WrapperProperties.ResolvesToConfiguredBranch | src/ClientWrapper.php:162-166 | a configured id is used verbatim, and the wrapper reports the name and flag of the last record with that id |
| WrapperProperties.UnknownBranchIdFails | src/ClientWrapper.php:168-170 | a configured id that no record carries makes every resolving accessor fail with "Can not resolve branchId" |
| WrapperProperties.MissingDefaultFails | src/ClientWrapper.php:158-160 | without a flagged record, every resolving accessor fails with "Can not find default branch" |
| WrapperProperties.ResolvedWrapperIgnoresListing | src/ClientWrapper.php:140-142 | once resolved, no accessor looks at the listing or changes the wrapper |
| WrapperProperties.ListingFetchedOnce | src/ClientWrapper.php:138-171 | after a successful first call, a second call fetches no listing and returns the same answer |
| WrapperProperties.DevelopmentIsNotDefault | src/ClientWrapper.php:98-108 | isDevelopmentBranch is !isDefaultBranch, with the same state change and errors |
| WrapperProperties.DefaultBranchIsFlagged | src/ClientWrapper.php:110-114 | with distinct ids, getDefaultBranch returns a branch flagged default |
| WrapperProperties.BasicClientBuiltOnce | src/ClientWrapper.php:30-38 | a second getBasicClient returns the same object and builds nothing |
| WrapperProperties.ClientForBranchCached | src/ClientWrapper.php:40-59 | a second request for the same id returns the same object, whatever listing is offered |
| WrapperProperties.BranchClientsAreDistinct | src/ClientWrapper.php:40-59 | clients for different ids are different objects, and neither is the basic client |
| WrapperProperties.BranchClientCached | src/ClientWrapper.php:61-64 | getBranchClient keeps returning the object it returned first |
| WrapperProperties.DefaultBranchSharesClient | src/ClientWrapper.php:61-69 | whenever the resolved target id is the default branch's id (configured as null, "default" or that id itself), getBranchClient and getClientForDefaultBranch return the same object, in either order |
| WrapperProperties.BranchClientIsClientForBranchId | src/ClientWrapper.php:61-64 | getBranchClient gives the same answer as getClientForBranch on the resolved id, and the same wrapper state when that id is numeric |
| WrapperProperties.DefaultClientIsClientForDefaultId | src/ClientWrapper.php:66-69 | getClientForDefaultBranch gives the same answer as getClientForBranch on the default id, and the same wrapper state when that id is numeric |
| WrapperProperties.IntegerIdsServeDefaultClient | src/ClientWrapper.php:40-69 | when every listed id is a non-negative integer, the last branch flagged default has an id other than 0, and the target is listed, getClientForDefaultBranch succeeds (its id passes the digit check) |
| WrapperProperties.TokenComputedOnce | src/ClientWrapper.php:127-136 | after a first getToken, later calls return the same token view and ignore new verification data |
| Tokens.GettersReturnConstructorInputs | src/StorageApiToken.php:11-25 | the token view returns exactly the record and token string it was built from |
| Tokens.GetTokenInfo | src/StorageApiToken.php:17-20 | the record, which rebuilds the same token view together with the token string |
| Tokens.GetTokenValue | src/StorageApiToken.php:22-25 | the token string, which rebuilds the same token view together with the record |
| Tokens.GetProjectName | src/StorageApiToken.php:65-68 | the owner's name, present exactly when it is stored as a string |
| Tokens.GetTokenDesc | src/StorageApiToken.php:70-73 | the first "description" entry, present exactly when it is a string |
| Tokens.GetFileStorageProvider | src/StorageApiToken.php:60-63 | the owner's file storage provider, present exactly when it is stored as a string |
| Tokens.GetRole | src/StorageApiToken.php:75-78 | null when there is no admin entry, when it is not an array, or when its role is absent or null; otherwise the first role entry of the first admin entry |
| Tokens.IdString | src/StorageApiToken.php:27-35 | an id read with `?? null` and cast to string: "" when absent, a string id unchanged, a non-negative integer id in canonical decimal (digits that read back as the integer, no leading zero, "0" for zero) |
| Tokens.IntegerIdExamples | src/StorageApiToken.php:27-35 | the integer ids 123, 456 and 0 render as "123", "456" and "0" |
| Tokens.GetTokenId | src/StorageApiToken.php:32-35 | the id cast to string: "" when absent, the string itself, or the integer id in canonical decimal (no leading zero) |
| Tokens.GetProjectId | src/StorageApiToken.php:27-30 | the owner's id cast to string: "" when absent, the string itself, or the integer id in canonical decimal (no leading zero) |
| Tokens.GetFeatures | src/StorageApiToken.php:40-43 | the values of the owner's feature array, in order |
| Tokens.HasFeature | src/StorageApiToken.php:45-48 | true exactly when the string is among the features (strict comparison) |
| Tokens.GetRoles | src/StorageApiToken.php:80-83 | at most one role: the role, exactly when it is set and not empty |
| Tokens.GetAllowedComponents | src/StorageApiToken.php:85-88 | absent or null gives null, otherwise the stored value |
| Tokens.IsAdminToken | src/StorageApiToken.php:107-110 | true exactly when the admin entry is present and not empty |
| Tokens.PermissionsMembership | src/StorageApiToken.php:93-105 | a key is a permission exactly when its value is true and the key matches `/^can[a-z]+$/ui` |
| Tokens.PermissionNameExamples | src/StorageApiToken.php:93-105 | sample keys against `/^can[a-z]+$/ui`: "canManageBuckets", "CANread" and "canRead" followed by a newline match; "can", "youcanttouchthis", a trailing quote and an underscore do not |
| Tokens.GetPermissions | src/StorageApiToken.php:93-105 | the loop returns exactly those keys, in record order |
| PlainFactory.New | src/Factory/StorageClientPlainFactory.php:13-16 | the factory holds the caller's own object, not a copy |
| PlainFactory.GetClientOptionsReadOnly | src/Factory/StorageClientPlainFactory.php:18-21 | a new object equal to the factory's options; no existing object changes |
| PlainFactory.CreateClientWrapper | src/Factory/StorageClientPlainFactory.php:23-28 | a fresh wrapper over the factory's options with the per-call options merged over them; no existing object changes |
| PlainFactory.ReadOnlyCopyIsIndependent | src/Factory/StorageClientPlainFactory.php:18-21 | changing the returned copy does not change what the factory returns next |
| PlainFactory.CreateLeavesInputsUnchanged | src/Factory/StorageClientPlainFactory.php:23-28 | neither the factory's options nor the caller's change, and no run id appears unless one of them sets it |
| PlainFactory.FactorySharesCallersObject | src/Factory/StorageClientPlainFactory.php:13-16 | a later change to the caller's object is seen by the factory |
| RequestFactory.New | src/Factory/StorageClientRequestFactory.php:20-24 | the factory gets a new object holding the caller's values |
| RequestFactory.GetClientOptionsReadOnly | src/Factory/StorageClientRequestFactory.php:87-90 | a new object equal to the factory's options |
| RequestFactory.TokenAndAuthMethod | src/Factory/StorageClientRequestFactory.php:26-56 | a `Bearer ` Authorization header yields (rest, "oauth"), or a 401 error when the rest is empty; otherwise a non-empty X-StorageApi-Token yields (token, "token"), else a 401 error |
| RequestFactory.RunId | src/Factory/StorageClientRequestFactory.php:58-70 | the run-id header when non-empty, else the generator applied to the options, else `run-` followed by the unique suffix |
| RequestFactory.CreateClientWrapper | src/Factory/StorageClientRequestFactory.php:72-85 | fails exactly when the token lookup fails (an empty Bearer token, or no Bearer prefix and no X-StorageApi-Token), with its 401 error; otherwise a fresh wrapper whose token, auth method and run id come from the request and every other field from the merged options; no existing object changes |
| RequestFactory.BearerWinsOverStorageToken | src/Factory/StorageClientRequestFactory.php:31-41 | with a Bearer header, the X-StorageApi-Token header is irrelevant |
| RequestFactory.NonBearerAuthorizationIgnored | src/Factory/StorageClientRequestFactory.php:31-55 | a non-Bearer Authorization header gives the same outcome as none at all |
| RequestFactory.EmptyBearerRefused | src/Factory/StorageClientRequestFactory.php:33-39 | `Bearer ` with nothing after it is a 401 error, even when a token header is present |
| RequestFactory.RequestOverridesConfiguredValues | src/Factory/StorageClientRequestFactory.php:78-82 | configured token, auth method and run id are always replaced; without header or generator the run id is `run-` + suffix |
| RequestFactory.FactoryIsolatedFromCaller | src/Factory/StorageClientRequestFactory.php:20-24 | a later change to the caller's object is not seen by the factory |
| RequestFactory.CreateLeavesInputsUnchanged | src/Factory/StorageClientRequestFactory.php:72-85 | creating a wrapper changes neither the factory's options nor the per-call options |

Notes on the model:

- Ids are cast with PHP's `(string)`. If two listing records cast to the same
  id, the later one replaces the earlier in the branch map, but the default id
  is still recorded from the earlier record. `getDefaultBranch` can then return
  a branch whose default flag is false (`Branches.DuplicateIdHidesDefault`).
  The Storage API does not return duplicate ids, so this is stated as a
  precondition (`DistinctIds`) of the default-flag lemmas rather than as a
  defect.
- Where the library's tests expect behaviour that the code no longer has, the
  model follows the code.

## Left out

- HTTP, the Storage API `Client` and `BranchAwareClient` constructors, `listBranches` and `verifyToken` are not modelled. The branch listing and the token-verification record are inputs to the accessors. A built client is recorded as its serial number, its branch, its constructor arguments, its run id and its backend configuration.
- Symfony's URL validator is not modelled: URL validity is a parameter (`validUrl`).
- Header lookup is by exact name. Symfony header bags are case-insensitive, and that is not modelled.
- `uniqid` is not modelled: its output is a parameter (`suffix`).
- A run-id generator closure is not modelled: it is a parameter (`apply`) that maps the generator and the options to a string. Any side effects the closure has on the options object are left out.
- Loggers, closures and `BackendConfiguration` objects are opaque handles. The model never calls them.
- `getPayAsYouGoPurchasedCredits` (a float) and `getSamlUserId` are left out.
- `getAuthMethod` and the other plain getters are the record's fields. `Options.Get` exposes them.
- Behaviour after a failed resolution is not modelled. By the time PHP throws, the listing loop has filled the whole branch map; the target id is unset when the default is missing and holds the unlisted id otherwise. A non-empty map makes the next call return early without listing again. The model instead stays unresolved and fetches the listing again on the next call.
- The `ClientWrapper` constructor keeps the caller's `ClientOptions` object by reference, but the wrapper model takes a snapshot of its values. The factories hand each wrapper an object nobody else holds, so the two agree there.
- The `(int)` cast `BranchAwareClient` applies to the branch id is left out. The client records the branch id string.
- `array_filter` in `getPermissions` keeps the original array keys, which are not modelled. The model returns the permission names in order.
- In the `/^can[a-z]+$/ui` check, the Unicode case folds of the `u` flag (the Kelvin sign, the long s) are left out. ASCII letters in either case are accepted, and so is one trailing newline.
- Type errors PHP raises on ill-typed verification records are not modelled. They are `None` (`Tokens.GetFeatures`, `Tokens.HasFeature`, `Tokens.GetProjectName`, `Tokens.GetTokenDesc`, `Tokens.GetFileStorageProvider`), and a lookup through a non-array reads as absent.
- Branches.DefaultBranchIsDefault: requires distinct listing ids (see the notes above).
- WrapperProperties.DefaultBranchIsFlagged: requires distinct listing ids (see the notes above).
- Branches returned by `getBranch` and `getDefaultBranch` are values. PHP returns the wrapper's cached `Branch` object, whose public `client` slot is shared: a branch fetched before `getBranchClient()` later shows the client, and writing to that slot changes what `getClientForBranch` returns. The model does not model this aliasing.
- Tokens.IdString: negative integer, boolean and array ids are cast as PHP does, but the contract states only the absent, string and non-negative integer cases, the ones the Storage API returns.
- Tokens.GetRole: returns any non-null stored role. The TypeError PHP raises for a role that is not a string (the declared `?string` return type) is not modelled.
- Wrapper.GetToken: when no token is configured, the token string is "". What the Storage API client does without a token is not part of this model.

=== FILE: branch.dfy ===
/** Branch records (src/Branch.php) and the interpretation of a branch
    listing (the loop and checks of ClientWrapper::resolveBranches). */
module Branches {
  import opened Outcome
  import opened Php
  import Options

  /** The configured branch id that means "whatever branch is the default". */
  const BRANCH_DEFAULT: string := "default"

  /** A storage client object. `serial` is its identity: two handles are the
      same PHP object exactly when they are equal. `branch` is None for the
      basic client and the branch id for a branch-aware client; the other
      fields record what the wrapper configured on it when it was built. */
  datatype Client = Client(
    serial: nat,
    branch: Option<string>,
    construct: seq<Options.ConstructEntry>,
    runId: Option<string>,
    backend: Option<Options.BackendConfigurationRef>)

  /** `getTokenString()`: the token the client was constructed with ("" when
      that entry is null). */
  function TokenString(c: Client): string
  {
    var v := Options.ConstructValue(c.construct, Options.KeyOf(Options.Token));
    if v.Text? then v.text else ""
  }

  /** id, name and isDefault are readonly; the client slot is the only
      mutable part. */
  datatype Branch = Branch(id: string, name: string, isDefault: bool, client: Option<Client>)

  /** `new Branch($id, $name, $isDefault)`: the client slot starts empty. */
  function NewBranch(id: string, name: string, isDefault: bool): (b: Branch)
    ensures b.id == id && b.name == name && b.isDefault == isDefault
    ensures b.client.None?
  {
    Branch(id, name, isDefault, None)
  }

  /** Filling the client slot, the only write a Branch ever receives. */
  function WithClient(b: Branch, c: Client): (r: Branch)
    ensures r.id == b.id && r.name == b.name && r.isDefault == b.isDefault
    ensures r.client == Some(c)
  {
    b.(client := Some(c))
  }

  /** One record of the branch listing, as decoded from the API response. */
  datatype ListedBranch = ListedBranch(id: Value, name: Value, isDefault: Value)

  /** The key a listed record is stored under: its id cast to string. */
  function Key(row: ListedBranch): string
  {
    ToStr(row.id)
  }

  /** The Branch object built from one listed record. */
  function FromListing(row: ListedBranch): Branch
  {
    NewBranch(ToStr(row.id), ToStr(row.name), Truthy(row.isDefault))
  }

  /** Record `i` is the last one with its key, so it is the one kept. */
  predicate LastWithKey(l: seq<ListedBranch>, i: int)
  {
    0 <= i < |l| && forall j :: i < j < |l| ==> Key(l[j]) != Key(l[i])
  }

  /** No two records share an id (after the string cast). */
  predicate DistinctIds(l: seq<ListedBranch>)
  {
    forall i, j :: 0 <= i < j < |l| ==> Key(l[i]) != Key(l[j])
  }

  /** The branch map the listing loop builds: one entry per distinct id,
      a later record replacing an earlier one with the same id (see
      BuildBranchesKeys and BuildBranchesKeepsLast). */
  function BuildBranches(l: seq<ListedBranch>): (m: map<string, Branch>)
    ensures forall k :: k in m ==> m[k].id == k && m[k].client.None?
    decreases |l|
  {
    if |l| == 0 then map[]
    else BuildBranches(l[..|l| - 1])[Key(l[|l| - 1]) := FromListing(l[|l| - 1])]
  }

  /** Every listed id, and nothing else, is a key of the branch map. */
  lemma {:induction false} BuildBranchesKeys(l: seq<ListedBranch>, k: string)
    ensures k in BuildBranches(l) <==> exists i :: 0 <= i < |l| && Key(l[i]) == k
    decreases |l|
  {
    if |l| > 0 {
      var prefix := l[..|l| - 1];
      BuildBranchesKeys(prefix, k);
      if k in BuildBranches(prefix) {
        var i :| 0 <= i < |prefix| && Key(prefix[i]) == k;
        assert Key(l[i]) == k;
      }
      if exists i :: 0 <= i < |l| && Key(l[i]) == k {
        var i :| 0 <= i < |l| && Key(l[i]) == k;
        if i < |l| - 1 {
          assert Key(prefix[i]) == k;
        }
      }
    }
  }

  /** The entry under an id is the Branch built from the last record
      listing that id. */
  lemma {:induction false} BuildBranchesKeepsLast(l: seq<ListedBranch>, i: int)
    requires LastWithKey(l, i)
    ensures Key(l[i]) in BuildBranches(l) && BuildBranches(l)[Key(l[i])] == FromListing(l[i])
    decreases |l|
  {
    if i < |l| - 1 {
      var prefix := l[..|l| - 1];
      assert prefix[i] == l[i];
      assert LastWithKey(prefix, i) by {
        forall j | i < j < |prefix| ensures Key(prefix[j]) != Key(prefix[i]) {
          assert prefix[j] == l[j];
        }
      }
      BuildBranchesKeepsLast(prefix, i);
      assert Key(l[|l| - 1]) != Key(l[i]);
    }
  }

  /** Record `i` is flagged default and no later record is. */
  predicate LastDefault(l: seq<ListedBranch>, i: int)
  {
    0 <= i < |l| && Truthy(l[i].isDefault)
    && forall j :: i < j < |l| ==> !Truthy(l[j].isDefault)
  }

  /** The id the listing loop leaves in `defaultBranchId`: that of the last
      record flagged default, or none (see DefaultBranchIdIsLastDefault). */
  function DefaultBranchId(l: seq<ListedBranch>): Option<string>
    decreases |l|
  {
    if |l| == 0 then None
    else if Truthy(l[|l| - 1].isDefault) then Some(Key(l[|l| - 1]))
    else DefaultBranchId(l[..|l| - 1])
  }

  /** The default id is absent exactly when no record is flagged default, and
      otherwise is the id of the last record flagged default. */
  lemma {:induction false} DefaultBranchIdIsLastDefault(l: seq<ListedBranch>)
    ensures DefaultBranchId(l).None? <==> forall i :: 0 <= i < |l| ==> !Truthy(l[i].isDefault)
    ensures DefaultBranchId(l).Some? ==> exists i :: LastDefault(l, i) && Key(l[i]) == DefaultBranchId(l).value
    decreases |l|
  {
    if |l| > 0 {
      var last := |l| - 1;
      if Truthy(l[last].isDefault) {
        assert LastDefault(l, last);
      } else {
        var prefix := l[..last];
        DefaultBranchIdIsLastDefault(prefix);
        assert forall i :: 0 <= i < last ==> prefix[i] == l[i];
        if DefaultBranchId(prefix).Some? {
          var i :| LastDefault(prefix, i) && Key(prefix[i]) == DefaultBranchId(prefix).value;
          assert LastDefault(l, i);
        }
      }
    }
  }

  /** The `foreach` of resolveBranches, statement by statement: it computes
      the branch map and default id described by BuildBranches and
      DefaultBranchId. */
  method ScanListing(l: seq<ListedBranch>) returns (branches: map<string, Branch>, defaultId: Option<string>)
    ensures branches == BuildBranches(l)
    ensures defaultId == DefaultBranchId(l)
  {
    branches := map[];
    defaultId := None;
    var i := 0;
    while i < |l|
      invariant 0 <= i <= |l|
      invariant branches == BuildBranches(l[..i])
      invariant defaultId == DefaultBranchId(l[..i])
    {
      var row := l[i];
      assert l[..i + 1][..i] == l[..i];
      branches := branches[Key(row) := FromListing(row)];
      if Truthy(row.isDefault) {
        defaultId := Some(Key(row));
      }
      i := i + 1;
    }
    assert l[..i] == l;
  }

  /** What a successful resolution leaves behind. */
  datatype Resolution = Resolution(branches: map<string, Branch>, branchId: string, defaultBranchId: string)

  /** The id shown in resolution errors: the configured id, or "" for null. */
  function Shown(configured: Option<string>): string
  {
    if configured.Some? then configured.value else ""
  }

  function NoDefaultMessage(configured: Option<string>): string
  {
    "Can not find default branch for branchId: \"" + Shown(configured) + "\"."
  }

  function UnresolvedMessage(configured: Option<string>): string
  {
    "Can not resolve branchId: \"" + Shown(configured) + "\"."
  }

  /** Null and "default" both select the default branch. */
  predicate SelectsDefault(configured: Option<string>)
  {
    configured.None? || configured.value == BRANCH_DEFAULT
  }

  /** The checks of resolveBranches after the listing loop: a default branch
      must exist (an empty() id, such as "0", counts as missing), then the
      target id — the default one for null/"default", otherwise the
      configured one verbatim — must be a listed id. */
  function Resolve(l: seq<ListedBranch>, configured: Option<string>): (r: Result<Resolution>)
    ensures (forall i :: 0 <= i < |l| ==> !Truthy(l[i].isDefault)) ==> r == Err(Fail(NoDefaultMessage(configured)))
    ensures r.Ok? ==> exists i :: LastDefault(l, i) && Key(l[i]) == r.value.defaultBranchId
    ensures r.Ok? ==> r.value.branchId in r.value.branches && r.value.defaultBranchId in r.value.branches
    ensures r.Ok? && SelectsDefault(configured) ==> r.value.branchId == r.value.defaultBranchId
    ensures r.Ok? && !SelectsDefault(configured) ==> r.value.branchId == configured.value
    ensures r.Err? ==> r.error == Fail(NoDefaultMessage(configured)) || r.error == Fail(UnresolvedMessage(configured))
    ensures r.Err? && r.error == Fail(UnresolvedMessage(configured)) ==>
              !SelectsDefault(configured) && forall i :: 0 <= i < |l| ==> Key(l[i]) != configured.value
    ensures (DefaultBranchId(l).None? || EmptyString(DefaultBranchId(l).value)) ==> r == Err(Fail(NoDefaultMessage(configured)))
    ensures (&& DefaultBranchId(l).Some? && !EmptyString(DefaultBranchId(l).value) && !SelectsDefault(configured)
             && forall i :: 0 <= i < |l| ==> Key(l[i]) != configured.value)
            ==> r == Err(Fail(UnresolvedMessage(configured)))
    ensures r.Ok? ==> r.value.branches == BuildBranches(l)
  {
    var branches := BuildBranches(l);
    var def := DefaultBranchId(l);
    DefaultBranchIdIsLastDefault(l);
    if def.None? || EmptyString(def.value) then
      Err(Fail(NoDefaultMessage(configured)))
    else
      var target := if SelectsDefault(configured) then def.value else configured.value;
      BuildBranchesKeys(l, target);
      BuildBranchesKeys(l, def.value);
      if target !in branches then
        Err(Fail(UnresolvedMessage(configured)))
      else
        Ok(Resolution(branches, target, def.value))
  }

  /** Resolution succeeds exactly when the default id is usable and the
      configured id is null, "default" or a listed id. */
  lemma {:induction false} ResolveSucceeds(l: seq<ListedBranch>, configured: Option<string>)
    ensures Resolve(l, configured).Ok? <==>
              && DefaultBranchId(l).Some? && !EmptyString(DefaultBranchId(l).value)
              && (SelectsDefault(configured) || exists i :: 0 <= i < |l| && Key(l[i]) == configured.value)
  {
    var def := DefaultBranchId(l);
    if def.Some? && !EmptyString(def.value) {
      var target := if SelectsDefault(configured) then def.value else configured.value;
      BuildBranchesKeys(l, target);
    }
  }

  /** The branch recorded as default is flagged default — provided ids are
      distinct; see DuplicateIdHidesDefault for what happens otherwise. */
  lemma {:induction false} DefaultBranchIsDefault(l: seq<ListedBranch>, configured: Option<string>)
    requires DistinctIds(l)
    requires Resolve(l, configured).Ok?
    ensures Resolve(l, configured).value.branches[Resolve(l, configured).value.defaultBranchId].isDefault
  {
    var res := Resolve(l, configured).value;
    var i :| LastDefault(l, i) && Key(l[i]) == res.defaultBranchId;
    BuildBranchesKeepsLast(l, i);
  }

  /** With a repeated id the later record replaces the default one in the
      map, so the branch returned as default is not flagged default. */
  lemma DuplicateIdHidesDefault()
    ensures var l := [ListedBranch(Str("1"), Str("Main"), Bool(true)), ListedBranch(Str("1"), Str("Dev"), Bool(false))];
            Resolve(l, None).Ok?
            && !Resolve(l, None).value.branches[Resolve(l, None).value.defaultBranchId].isDefault
  {
    var l := [ListedBranch(Str("1"), Str("Main"), Bool(true)), ListedBranch(Str("1"), Str("Dev"), Bool(false))];
    assert LastWithKey(l, 1);
    assert DefaultBranchId(l) == Some("1");
  }

  /** A default branch whose id is 0 counts as missing: `(string) 0` is "0",
      which empty() treats as empty. */
  lemma ZeroDefaultIdIsMissing()
    ensures var l := [ListedBranch(Int(0), Str("Main"), Bool(true))];
            Resolve(l, None) == Err(Fail(NoDefaultMessage(None)))
  {
    var l := [ListedBranch(Int(0), Str("Main"), Bool(true))];
    assert Key(l[0]) == "0";
    assert DefaultBranchId(l) == Some("0");
  }
}

=== FILE: client_options.dfy ===
/** The connection-options record (src/Factory/ClientOptions.php): fifteen
    nullable fields, two validating setters, plain setters, an overlay merge
    and the projection handed to the storage client's constructor. */
module Options {
  import opened Outcome

  /** Opaque collaborators, compared by identity only. */
  datatype LoggerRef = LoggerRef(id: nat)
  datatype ClosureRef = ClosureRef(id: nat)
  datatype GeneratorRef = GeneratorRef(id: nat)
  datatype BackendConfigurationRef = BackendConfigurationRef(id: nat)

  const AUTH_METHOD_TOKEN: string := "token"
  const AUTH_METHOD_OAUTH: string := "oauth"

  datatype ClientOptions = ClientOptions(
    url: Option<string>,
    token: Option<string>,
    branchId: Option<string>,
    runId: Option<string>,
    logger: Option<LoggerRef>,
    userAgent: Option<string>,
    backoffMaxTries: Option<int>,
    awsRetries: Option<int>,
    awsDebug: Option<bool>,
    jobPollRetryDelay: Option<ClosureRef>,
    runIdGenerator: Option<GeneratorRef>,
    backendConfiguration: Option<BackendConfigurationRef>,
    useBranchStorage: Option<bool>,
    retryOnMaintenance: Option<bool>,
    authMethod: Option<string>
  )

  /** `new ClientOptions()`: every field null. */
  const Empty: ClientOptions := ClientOptions(
    None, None, None, None, None, None, None, None, None, None, None, None, None, None, None)

  /** The fifteen fields, named so that properties can quantify over them. */
  datatype Field =
    | Url | Token | BranchId | RunId | Logger | UserAgent | BackoffMaxTries
    | AwsRetries | AwsDebug | JobPollRetryDelay | RunIdGenerator
    | BackendConfiguration | UseBranchStorage | RetryOnMaintenance | AuthMethod

  /** The content of one field, whatever its PHP type; `Unset` is null. */
  datatype Slot =
    | Unset
    | Text(text: string)
    | Number(number: int)
    | Flag(flag: bool)
    | LoggerSlot(logger: LoggerRef)
    | ClosureSlot(closure: ClosureRef)
    | GeneratorSlot(generator: GeneratorRef)
    | BackendSlot(backend: BackendConfigurationRef)

  function TextSlot(o: Option<string>): Slot { if o.Some? then Text(o.value) else Unset }
  function NumberSlot(o: Option<int>): Slot { if o.Some? then Number(o.value) else Unset }
  function FlagSlot(o: Option<bool>): Slot { if o.Some? then Flag(o.value) else Unset }

  /** The getter of field `f`. */
  function Get(o: ClientOptions, f: Field): Slot
  {
    match f
    case Url => TextSlot(o.url)
    case Token => TextSlot(o.token)
    case BranchId => TextSlot(o.branchId)
    case RunId => TextSlot(o.runId)
    case Logger => if o.logger.Some? then LoggerSlot(o.logger.value) else Unset
    case UserAgent => TextSlot(o.userAgent)
    case BackoffMaxTries => NumberSlot(o.backoffMaxTries)
    case AwsRetries => NumberSlot(o.awsRetries)
    case AwsDebug => FlagSlot(o.awsDebug)
    case JobPollRetryDelay => if o.jobPollRetryDelay.Some? then ClosureSlot(o.jobPollRetryDelay.value) else Unset
    case RunIdGenerator => if o.runIdGenerator.Some? then GeneratorSlot(o.runIdGenerator.value) else Unset
    case BackendConfiguration => if o.backendConfiguration.Some? then BackendSlot(o.backendConfiguration.value) else Unset
    case UseBranchStorage => FlagSlot(o.useBranchStorage)
    case RetryOnMaintenance => FlagSlot(o.retryOnMaintenance)
    case AuthMethod => TextSlot(o.authMethod)
  }

  /** `s` has the PHP type of field `f` (null fits every field). */
  predicate Fits(f: Field, s: Slot)
  {
    match f
    case Url | Token | BranchId | RunId | UserAgent | AuthMethod => s.Unset? || s.Text?
    case BackoffMaxTries | AwsRetries => s.Unset? || s.Number?
    case AwsDebug | UseBranchStorage | RetryOnMaintenance => s.Unset? || s.Flag?
    case Logger => s.Unset? || s.LoggerSlot?
    case JobPollRetryDelay => s.Unset? || s.ClosureSlot?
    case RunIdGenerator => s.Unset? || s.GeneratorSlot?
    case BackendConfiguration => s.Unset? || s.BackendSlot?
  }

  /** Two option records with the same getters are the same record. */
  lemma {:induction false} FieldsDetermine(a: ClientOptions, b: ClientOptions)
    requires forall f :: Get(a, f) == Get(b, f)
    ensures a == b
  {
    assert Get(a, Url) == Get(b, Url);
    assert Get(a, Token) == Get(b, Token);
    assert Get(a, BranchId) == Get(b, BranchId);
    assert Get(a, RunId) == Get(b, RunId);
    assert Get(a, Logger) == Get(b, Logger);
    assert Get(a, UserAgent) == Get(b, UserAgent);
    assert Get(a, BackoffMaxTries) == Get(b, BackoffMaxTries);
    assert Get(a, AwsRetries) == Get(b, AwsRetries);
    assert Get(a, AwsDebug) == Get(b, AwsDebug);
    assert Get(a, JobPollRetryDelay) == Get(b, JobPollRetryDelay);
    assert Get(a, RunIdGenerator) == Get(b, RunIdGenerator);
    assert Get(a, BackendConfiguration) == Get(b, BackendConfiguration);
    assert Get(a, UseBranchStorage) == Get(b, UseBranchStorage);
    assert Get(a, RetryOnMaintenance) == Get(b, RetryOnMaintenance);
    assert Get(a, AuthMethod) == Get(b, AuthMethod);
  }

  /** A fresh `new ClientOptions()` has every getter null. */
  lemma EmptyIsAllNull(f: Field)
    ensures Get(Empty, f) == Unset
  {
  }

  // ---------------------------------------------------------------------
  // Validation

  predicate ValidAuthMethod(m: Option<string>)
  {
    m.None? || m.value == AUTH_METHOD_TOKEN || m.value == AUTH_METHOD_OAUTH
  }

  /** What the validating setters guarantee about every constructed object:
      the URL is null or passes the URL check, the auth method is null,
      "token" or "oauth". The URL check itself is the external validator,
      given here as the predicate `validUrl`. */
  predicate Valid(o: ClientOptions, validUrl: string -> bool)
  {
    (o.url.None? || validUrl(o.url.value)) && ValidAuthMethod(o.authMethod)
  }

  /** The message of the URL constraint the setter configures. */
  const URL_MESSAGE: string := "Storage API URL is not valid."

  /** `setUrl`: null always passes; anything else must satisfy the validator.
      On failure the object is left as it was. */
  function SetUrl(o: ClientOptions, url: Option<string>, validUrl: string -> bool): (r: Result<ClientOptions>)
    ensures r.Ok? <==> url.None? || validUrl(url.value)
    ensures r.Ok? ==> forall f :: Get(r.value, f) == (if f == Url then TextSlot(url) else Get(o, f))
    ensures r.Ok? && Valid(o, validUrl) ==> Valid(r.value, validUrl)
    ensures r.Err? ==> r.error.message == "Value \"" + url.value + "\" is invalid: " + URL_MESSAGE
  {
    if url.Some? && !validUrl(url.value) then
      Err(Fail("Value \"" + url.value + "\" is invalid: " + URL_MESSAGE))
    else
      Ok(o.(url := url))
  }

  /** `setAuthMethod`: null, "token" or "oauth"; anything else is rejected
      with a message naming the value. */
  function SetAuthMethod(o: ClientOptions, m: Option<string>): (r: Result<ClientOptions>)
    ensures r.Ok? <==> ValidAuthMethod(m)
    ensures r.Ok? ==> forall f :: Get(r.value, f) == (if f == AuthMethod then TextSlot(m) else Get(o, f))
    ensures r.Ok? ==> forall validUrl: string -> bool :: Valid(o, validUrl) ==> Valid(r.value, validUrl)
    ensures r.Err? ==>
              r.error.message == "authMethod must be \"" + AUTH_METHOD_TOKEN + "\" or \"" + AUTH_METHOD_OAUTH + "\". \"" + m.value + "\" given."
  {
    if m.Some? && m.value != AUTH_METHOD_TOKEN && m.value != AUTH_METHOD_OAUTH then
      Err(Fail("authMethod must be \"" + AUTH_METHOD_TOKEN + "\" or \"" + AUTH_METHOD_OAUTH + "\". \"" + m.value + "\" given."))
    else
      Ok(o.(authMethod := m))
  }

  /** The constructor: stores its fifteen arguments (given here as the record
      `args`), then validates the URL and then the auth method through their
      setters, so a bad URL is reported before a bad auth method. */
  function New(args: ClientOptions, validUrl: string -> bool): (r: Result<ClientOptions>)
    ensures r.Ok? <==> Valid(args, validUrl)
    ensures r.Ok? ==> r.value == args
    ensures r.Err? && !(args.url.None? || validUrl(args.url.value)) ==> r.error == SetUrl(args, args.url, validUrl).error
    ensures r.Err? && (args.url.None? || validUrl(args.url.value)) ==> r.error == SetAuthMethod(args, args.authMethod).error
  {
    match SetUrl(args, args.url, validUrl)
    case Err(e) => Err(e)
    case Ok(o) => SetAuthMethod(o, args.authMethod)
  }

  // ---------------------------------------------------------------------
  // Plain setters

  /** The fields whose setters store the value without validation. */
  predicate Plain(f: Field)
  {
    f != Url && f != AuthMethod
  }

  /** The thirteen plain setters (`setToken`, `setBranchId`, `setRunId`, ...):
      each stores its argument in its own field and touches nothing else. */
  function SetPlain(o: ClientOptions, f: Field, s: Slot): (r: ClientOptions)
    requires Plain(f) && Fits(f, s)
    ensures forall g :: Get(r, g) == (if g == f then s else Get(o, g))
    ensures forall validUrl: string -> bool :: Valid(o, validUrl) ==> Valid(r, validUrl)
  {
    match f
    case Token => o.(token := if s.Text? then Some(s.text) else None)
    case BranchId => o.(branchId := if s.Text? then Some(s.text) else None)
    case RunId => o.(runId := if s.Text? then Some(s.text) else None)
    case Logger => o.(logger := if s.LoggerSlot? then Some(s.logger) else None)
    case UserAgent => o.(userAgent := if s.Text? then Some(s.text) else None)
    case BackoffMaxTries => o.(backoffMaxTries := if s.Number? then Some(s.number) else None)
    case AwsRetries => o.(awsRetries := if s.Number? then Some(s.number) else None)
    case AwsDebug => o.(awsDebug := if s.Flag? then Some(s.flag) else None)
    case JobPollRetryDelay => o.(jobPollRetryDelay := if s.ClosureSlot? then Some(s.closure) else None)
    case RunIdGenerator => o.(runIdGenerator := if s.GeneratorSlot? then Some(s.generator) else None)
    case BackendConfiguration => o.(backendConfiguration := if s.BackendSlot? then Some(s.backend) else None)
    case UseBranchStorage => o.(useBranchStorage := if s.Flag? then Some(s.flag) else None)
    case RetryOnMaintenance => o.(retryOnMaintenance := if s.Flag? then Some(s.flag) else None)
  }

  // ---------------------------------------------------------------------
  // Merge

  /** `$this->addValuesFrom($other)`: every field of `other` that is not null
      overrides the corresponding field of `o`; `false` and `0` are not null
      and therefore override too. */
  function AddValuesFrom(o: ClientOptions, other: ClientOptions): (r: ClientOptions)
    ensures forall f :: Get(r, f) == (if Get(other, f) != Unset then Get(other, f) else Get(o, f))
  {
    ClientOptions(
      other.url.OrElse(o.url),
      other.token.OrElse(o.token),
      other.branchId.OrElse(o.branchId),
      other.runId.OrElse(o.runId),
      other.logger.OrElse(o.logger),
      other.userAgent.OrElse(o.userAgent),
      other.backoffMaxTries.OrElse(o.backoffMaxTries),
      other.awsRetries.OrElse(o.awsRetries),
      other.awsDebug.OrElse(o.awsDebug),
      other.jobPollRetryDelay.OrElse(o.jobPollRetryDelay),
      other.runIdGenerator.OrElse(o.runIdGenerator),
      other.backendConfiguration.OrElse(o.backendConfiguration),
      other.useBranchStorage.OrElse(o.useBranchStorage),
      other.retryOnMaintenance.OrElse(o.retryOnMaintenance),
      other.authMethod.OrElse(o.authMethod)
    )
  }

  /** Merging from an all-null object changes nothing. */
  lemma {:induction false} AddValuesFromEmpty(o: ClientOptions)
    ensures AddValuesFrom(o, Empty) == o
  {
    forall f ensures Get(AddValuesFrom(o, Empty), f) == Get(o, f) {
      EmptyIsAllNull(f);
    }
    FieldsDetermine(AddValuesFrom(o, Empty), o);
  }

  /** Merging into an all-null object copies the source exactly. */
  lemma {:induction false} AddValuesIntoEmpty(o: ClientOptions)
    ensures AddValuesFrom(Empty, o) == o
  {
    forall f ensures Get(AddValuesFrom(Empty, o), f) == Get(o, f) {
      EmptyIsAllNull(f);
    }
    FieldsDetermine(AddValuesFrom(Empty, o), o);
  }

  /** Merging an object into itself changes nothing. */
  lemma {:induction false} AddValuesFromSelf(o: ClientOptions)
    ensures AddValuesFrom(o, o) == o
  {
    FieldsDetermine(AddValuesFrom(o, o), o);
  }

  /** Two merges in a row equal one merge from the combined overlay. */
  lemma {:induction false} AddValuesFromAssociative(a: ClientOptions, b: ClientOptions, c: ClientOptions)
    ensures AddValuesFrom(AddValuesFrom(a, b), c) == AddValuesFrom(a, AddValuesFrom(b, c))
  {
    FieldsDetermine(AddValuesFrom(AddValuesFrom(a, b), c), AddValuesFrom(a, AddValuesFrom(b, c)));
  }

  /** The merge copies only values that were already validated, so it keeps
      the URL and auth-method invariant. */
  lemma {:induction false} AddValuesFromPreservesValid(o: ClientOptions, other: ClientOptions, validUrl: string -> bool)
    requires Valid(o, validUrl) && Valid(other, validUrl)
    ensures Valid(AddValuesFrom(o, other), validUrl)
  {
    var r := AddValuesFrom(o, other);
    assert Get(r, Url) == (if Get(other, Url) != Unset then Get(other, Url) else Get(o, Url));
    assert Get(r, AuthMethod) == (if Get(other, AuthMethod) != Unset then Get(other, AuthMethod) else Get(o, AuthMethod));
  }

  // ---------------------------------------------------------------------
  // Construct options

  /** The fields handed to the storage client's constructor, in order. */
  const ConstructFields: seq<Field> := [
    Url, UserAgent, Token, BackoffMaxTries, RetryOnMaintenance,
    AwsRetries, AwsDebug, Logger, JobPollRetryDelay, AuthMethod]

  /** The array key under which a field is handed to the storage client. */
  function KeyOf(f: Field): string
  {
    match f
    case Url => "url"
    case Token => "token"
    case BranchId => "branchId"
    case RunId => "runId"
    case Logger => "logger"
    case UserAgent => "userAgent"
    case BackoffMaxTries => "backoffMaxTries"
    case AwsRetries => "awsRetries"
    case AwsDebug => "awsDebug"
    case JobPollRetryDelay => "jobPollRetryDelay"
    case RunIdGenerator => "runIdGenerator"
    case BackendConfiguration => "backendConfiguration"
    case UseBranchStorage => "useBranchStorage"
    case RetryOnMaintenance => "retryOnMaintenance"
    case AuthMethod => "authMethod"
  }

  datatype ConstructEntry = ConstructEntry(key: string, value: Slot)

  /** `getClientConstructOptions`: the ten client-construction keys with the
      current values (null included, so `authMethod` is present and null
      when unset). */
  function GetClientConstructOptions(o: ClientOptions): (r: seq<ConstructEntry>)
    ensures |r| == |ConstructFields|
    ensures forall i :: 0 <= i < |r| ==> r[i] == ConstructEntry(KeyOf(ConstructFields[i]), Get(o, ConstructFields[i]))
  {
    [
      ConstructEntry("url", TextSlot(o.url)),
      ConstructEntry("userAgent", TextSlot(o.userAgent)),
      ConstructEntry("token", TextSlot(o.token)),
      ConstructEntry("backoffMaxTries", NumberSlot(o.backoffMaxTries)),
      ConstructEntry("retryOnMaintenance", FlagSlot(o.retryOnMaintenance)),
      ConstructEntry("awsRetries", NumberSlot(o.awsRetries)),
      ConstructEntry("awsDebug", FlagSlot(o.awsDebug)),
      ConstructEntry("logger", if o.logger.Some? then LoggerSlot(o.logger.value) else Unset),
      ConstructEntry("jobPollRetryDelay", if o.jobPollRetryDelay.Some? then ClosureSlot(o.jobPollRetryDelay.value) else Unset),
      ConstructEntry("authMethod", TextSlot(o.authMethod))
    ]
  }

  /** The value a construct map holds under `key` (the first entry with
      that key), Unset when there is none. */
  function ConstructValue(entries: seq<ConstructEntry>, key: string): (v: Slot)
    ensures (forall i :: 0 <= i < |entries| ==> entries[i].key != key) ==> v == Unset
  {
    if |entries| == 0 then Unset
    else if entries[0].key == key then entries[0].value
    else ConstructValue(entries[1..], key)
  }

  /** The client receives the configured token under "token". */
  lemma {:induction false} ConstructedToken(o: ClientOptions)
    ensures ConstructValue(GetClientConstructOptions(o), KeyOf(Token)) == Get(o, Token)
  {
    var r := GetClientConstructOptions(o);
    assert r[0].key == "url" && r[1].key == "userAgent" && r[2] == ConstructEntry("token", Get(o, Token));
    calc {
      ConstructValue(r, "token");
      ConstructValue(r[1..], "token");
      { assert r[1..][0] == r[1]; }
      ConstructValue(r[1..][1..], "token");
      { assert r[1..][1..][0] == r[2]; }
      r[2].value;
    }
  }

  function Keys(entries: seq<ConstructEntry>): (r: seq<string>)
    ensures |r| == |entries|
    ensures forall i :: 0 <= i < |r| ==> r[i] == entries[i].key
  {
    if |entries| == 0 then [] else [entries[0].key] + Keys(entries[1..])
  }

  /** The construct map has exactly these keys, and none of branchId, runId,
      runIdGenerator, backendConfiguration or useBranchStorage. */
  lemma ConstructOptionsKeys(o: ClientOptions)
    ensures Keys(GetClientConstructOptions(o)) == [
      "url", "userAgent", "token", "backoffMaxTries", "retryOnMaintenance",
      "awsRetries", "awsDebug", "logger", "jobPollRetryDelay", "authMethod"]
    ensures forall k :: k in Keys(GetClientConstructOptions(o)) ==>
      k !in {"branchId", "runId", "runIdGenerator", "backendConfiguration", "useBranchStorage"}
  {
    var e := GetClientConstructOptions(o);
    var want := [
      "url", "userAgent", "token", "backoffMaxTries", "retryOnMaintenance",
      "awsRetries", "awsDebug", "logger", "jobPollRetryDelay", "authMethod"];
    assert |e| == |want|;
    forall i | 0 <= i < |e| ensures e[i].key == want[i] {
      assert e[i].key == KeyOf(ConstructFields[i]);
    }
    assert Keys(e) == want;
  }

  /** Changing a field that is not a construct field does not change the
      construct map. */
  lemma {:induction false} ConstructOptionsIgnoreOtherFields(o: ClientOptions, f: Field, s: Slot)
    requires Plain(f) && Fits(f, s) && f !in ConstructFields
    ensures GetClientConstructOptions(SetPlain(o, f, s)) == GetClientConstructOptions(o)
  {
    var a := GetClientConstructOptions(SetPlain(o, f, s));
    var b := GetClientConstructOptions(o);
    forall i | 0 <= i < |a| ensures a[i] == b[i] {
      assert ConstructFields[i] != f;
    }
  }
}

=== FILE: client_wrapper.dfy ===
/** The client wrapper (src/ClientWrapper.php): resolves the configured
    branch against the branch listing once, and lazily builds and caches one
    basic client, one branch-aware client per branch id and one token view.

    The wrapper's state is a value and each method is a function from the
    state (plus whatever the remote side would answer) to the next state and
    the method's return value or exception. `listing` is what the
    branch-listing endpoint returns whenever it is asked; `listings` counts
    how often it was asked. Client objects are handles numbered by `minted`. */
module Wrapper {
  import opened Outcome
  import opened Php
  import Options
  import opened Branches
  import Tokens

  datatype ClientWrapper = ClientWrapper(
    options: Options.ClientOptions,
    basicClient: Option<Client>,
    storageToken: Option<Tokens.StorageApiToken>,
    resolved: Option<Resolution>,
    minted: nat,
    listings: nat)

  /** The next state together with the method's outcome. */
  datatype Step<+T> = Step(w: ClientWrapper, out: Result<T>)

  /** `new ClientWrapper($options)`: nothing resolved or built yet. */
  function New(options: Options.ClientOptions): (w: ClientWrapper)
    ensures w.options == options
    ensures w.basicClient.None? && w.storageToken.None? && w.resolved.None?
    ensures w.listings == 0
    ensures Inv(w)
  {
    ClientWrapper(options, None, None, None, 0, 0)
  }

  /** `c` was configured from options `o`: its constructor arguments, run id
      and backend configuration are the ones `o` holds. */
  predicate Configured(c: Client, o: Options.ClientOptions)
  {
    && c.construct == Options.GetClientConstructOptions(o)
    && c.runId == o.runId
    && c.backend == o.backendConfiguration
  }

  /** Cached branch data is keyed by its own id, and every cached client is
      an object built earlier from `options` for exactly that branch. */
  predicate ResolutionInv(res: Resolution, minted: nat, options: Options.ClientOptions)
  {
    && res.branchId in res.branches
    && res.defaultBranchId in res.branches
    && forall k :: k in res.branches ==>
         && res.branches[k].id == k
         && (res.branches[k].client.Some? ==>
               CtypeDigit(k)
               && res.branches[k].client.value.serial < minted
               && res.branches[k].client.value.branch == Some(k)
               && Configured(res.branches[k].client.value, options))
  }

  /** The id the configured branch id selects once the default is known. */
  function Target(configured: Option<string>, res: Resolution): string
  {
    if SelectsDefault(configured) then res.defaultBranchId else configured.value
  }

  /** The wrapper's state invariant, kept by every operation: the basic
      client exists once resolution has run, the resolved target is the one
      the options select, and the token view needs a resolved branch. */
  predicate Inv(w: ClientWrapper)
  {
    && (w.basicClient.Some? ==>
          w.basicClient.value.serial < w.minted && w.basicClient.value.branch.None?
          && Configured(w.basicClient.value, w.options))
    && (w.resolved.Some? ==> w.basicClient.Some? && ResolutionInv(w.resolved.value, w.minted, w.options))
    && (w.resolved.Some? ==> w.resolved.value.branchId == Target(w.options.branchId, w.resolved.value))
    && (w.storageToken.Some? ==> w.resolved.Some?)
  }

  /** A new client object, configured from the options' construct map, run id
      and backend configuration. */
  function Build(w: ClientWrapper, branch: Option<string>): (c: Client)
    ensures c.serial == w.minted && c.branch == branch
    ensures c.construct == Options.GetClientConstructOptions(w.options)
    ensures c.runId == w.options.runId && c.backend == w.options.backendConfiguration
  {
    Client(w.minted, branch, Options.GetClientConstructOptions(w.options), w.options.runId, w.options.backendConfiguration)
  }

  /** `getBasicClient`: the cached basic client, built on first use. */
  function GetBasicClient(w: ClientWrapper): (r: (ClientWrapper, Client))
    requires Inv(w)
    ensures Inv(r.0)
    ensures r.0.basicClient == Some(r.1) && r.1.branch.None?
    ensures w.basicClient.Some? ==> r == (w, w.basicClient.value)
    ensures w.basicClient.None? ==> r.1 == Build(w, None) && r.0.minted == w.minted + 1
    ensures r.0.options == w.options && r.0.resolved == w.resolved
    ensures r.0.storageToken == w.storageToken && r.0.listings == w.listings
    ensures r.0.minted >= w.minted
  {
    if w.basicClient.Some? then (w, w.basicClient.value)
    else
      var c := Build(w, None);
      (w.(basicClient := Some(c), minted := w.minted + 1), c)
  }

  /** `resolveBranches`: returns at once when already resolved; otherwise
      obtains the basic client, asks the listing endpoint once and resolves.
      A failed resolution leaves the wrapper unresolved. */
  function ResolveBranches(w: ClientWrapper, listing: seq<ListedBranch>): (r: Step<()>)
    requires Inv(w)
    ensures Inv(r.w)
    ensures w.resolved.Some? ==> r == Step(w, Ok(()))
    ensures w.resolved.None? ==> r.w.listings == w.listings + 1
    ensures w.resolved.None? ==>
              (r.out.Ok? <==> Resolve(listing, w.options.branchId).Ok?)
              && (r.out.Err? ==> r.out.error == Resolve(listing, w.options.branchId).error)
              && (r.out.Ok? ==> r.w.resolved == Some(Resolve(listing, w.options.branchId).value))
    ensures r.out.Ok? <==> r.w.resolved.Some?
    ensures r.w.options == w.options && r.w.storageToken == w.storageToken
    ensures r.w.basicClient.Some? && (w.basicClient.Some? ==> r.w.basicClient == w.basicClient)
    ensures r.w.minted >= w.minted
  {
    if w.resolved.Some? then Step(w, Ok(()))
    else
      var (w1, _) := GetBasicClient(w);
      var w2 := w1.(listings := w1.listings + 1);
      match Resolve(listing, w.options.branchId)
      case Err(e) => Step(w2, Err(e))
      case Ok(res) => Step(w2.(resolved := Some(res)), Ok(()))
  }

  /** `getBranchId`. */
  function GetBranchId(w: ClientWrapper, listing: seq<ListedBranch>): (r: Step<string>)
    requires Inv(w)
    ensures Inv(r.w) && r.w == ResolveBranches(w, listing).w
    ensures r.out.Ok? <==> ResolveBranches(w, listing).out.Ok?
    ensures r.out.Err? ==> r.out.error == ResolveBranches(w, listing).out.error
    ensures r.out.Ok? ==> r.out.value == r.w.resolved.value.branchId
  {
    var s := ResolveBranches(w, listing);
    if s.out.Err? then Step(s.w, Err(s.out.error))
    else Step(s.w, Ok(s.w.resolved.value.branchId))
  }

  /** `getBranch`: the Branch the wrapper is configured for. */
  function GetBranch(w: ClientWrapper, listing: seq<ListedBranch>): (r: Step<Branch>)
    requires Inv(w)
    ensures Inv(r.w) && r.w == ResolveBranches(w, listing).w
    ensures r.out.Ok? <==> ResolveBranches(w, listing).out.Ok?
    ensures r.out.Err? ==> r.out.error == ResolveBranches(w, listing).out.error
    ensures r.out.Ok? ==> r.out.value.id == r.w.resolved.value.branchId
  {
    var s := ResolveBranches(w, listing);
    if s.out.Err? then Step(s.w, Err(s.out.error))
    else Step(s.w, Ok(s.w.resolved.value.branches[s.w.resolved.value.branchId]))
  }

  /** `getBranchName`: the name of the configured branch. */
  function GetBranchName(w: ClientWrapper, listing: seq<ListedBranch>): (r: Step<string>)
    requires Inv(w)
    ensures Inv(r.w) && r.w == ResolveBranches(w, listing).w
    ensures r.out.Ok? <==> ResolveBranches(w, listing).out.Ok?
    ensures r.out.Err? ==> r.out.error == ResolveBranches(w, listing).out.error
    ensures r.out.Ok? ==> r.out.value == GetBranch(w, listing).out.value.name
  {
    var s := ResolveBranches(w, listing);
    if s.out.Err? then Step(s.w, Err(s.out.error))
    else Step(s.w, Ok(s.w.resolved.value.branches[s.w.resolved.value.branchId].name))
  }

  /** `isDefaultBranch`: the configured branch's isDefault flag. */
  function IsDefaultBranch(w: ClientWrapper, listing: seq<ListedBranch>): (r: Step<bool>)
    requires Inv(w)
    ensures Inv(r.w) && r.w == ResolveBranches(w, listing).w
    ensures r.out.Ok? <==> ResolveBranches(w, listing).out.Ok?
    ensures r.out.Err? ==> r.out.error == ResolveBranches(w, listing).out.error
    ensures r.out.Ok? ==> r.out.value == GetBranch(w, listing).out.value.isDefault
  {
    var s := ResolveBranches(w, listing);
    if s.out.Err? then Step(s.w, Err(s.out.error))
    else Step(s.w, Ok(s.w.resolved.value.branches[s.w.resolved.value.branchId].isDefault))
  }

  /** `isDevelopmentBranch`: the negated isDefault flag. */
  function IsDevelopmentBranch(w: ClientWrapper, listing: seq<ListedBranch>): (r: Step<bool>)
    requires Inv(w)
    ensures Inv(r.w) && r.w == ResolveBranches(w, listing).w
    ensures r.out.Ok? <==> ResolveBranches(w, listing).out.Ok?
    ensures r.out.Err? ==> r.out.error == ResolveBranches(w, listing).out.error
    ensures r.out.Ok? ==> r.out.value == !GetBranch(w, listing).out.value.isDefault
  {
    var s := ResolveBranches(w, listing);
    if s.out.Err? then Step(s.w, Err(s.out.error))
    else Step(s.w, Ok(!s.w.resolved.value.branches[s.w.resolved.value.branchId].isDefault))
  }

  /** `getDefaultBranch`: the Branch recorded as default. */
  function GetDefaultBranch(w: ClientWrapper, listing: seq<ListedBranch>): (r: Step<Branch>)
    requires Inv(w)
    ensures Inv(r.w) && r.w == ResolveBranches(w, listing).w
    ensures r.out.Ok? <==> ResolveBranches(w, listing).out.Ok?
    ensures r.out.Err? ==> r.out.error == ResolveBranches(w, listing).out.error
    ensures r.out.Ok? ==> r.out.value.id == r.w.resolved.value.defaultBranchId
  {
    var s := ResolveBranches(w, listing);
    if s.out.Err? then Step(s.w, Err(s.out.error))
    else Step(s.w, Ok(s.w.resolved.value.branches[s.w.resolved.value.defaultBranchId]))
  }

  function NotANumberMessage(branchId: string): string
  {
    "Branch ID must be a number. \"" + branchId + "\" given."
  }

  function NoSuchBranchMessage(branchId: string): string
  {
    "Branch with ID \"" + branchId + "\" does not exist."
  }

  /** `getClientForBranch`: rejects a non-numeric id before anything else,
      resolves, rejects an unlisted id, and otherwise returns the branch's
      cached client, building and caching it on first use. */
  function GetClientForBranch(w: ClientWrapper, listing: seq<ListedBranch>, branchId: string): (r: Step<Client>)
    requires Inv(w)
    ensures Inv(r.w)
    ensures !CtypeDigit(branchId) ==> r == Step(w, Err(Fail(NotANumberMessage(branchId))))
    ensures CtypeDigit(branchId) && ResolveBranches(w, listing).out.Err? ==>
              r == Step(ResolveBranches(w, listing).w, Err(ResolveBranches(w, listing).out.error))
    ensures CtypeDigit(branchId) && ResolveBranches(w, listing).out.Ok? ==>
              var res := ResolveBranches(w, listing).w.resolved.value;
              (r.out.Ok? <==> branchId in res.branches)
              && (branchId !in res.branches ==> r == Step(ResolveBranches(w, listing).w, Err(Fail(NoSuchBranchMessage(branchId)))))
    ensures r.out.Ok? ==>
              && r.w.resolved.Some?
              && branchId in r.w.resolved.value.branches
              && r.w.resolved.value.branches[branchId].client == Some(r.out.value)
              && r.out.value.branch == Some(branchId)
              && Configured(r.out.value, w.options)
    ensures w.resolved.Some? && branchId in w.resolved.value.branches && w.resolved.value.branches[branchId].client.Some? ==>
              r == Step(w, Ok(w.resolved.value.branches[branchId].client.value))
    ensures r.w.options == w.options && r.w.storageToken == w.storageToken
    ensures r.w.minted >= w.minted
    ensures r.w.basicClient == (if CtypeDigit(branchId) then ResolveBranches(w, listing).w.basicClient else w.basicClient)
    ensures r.w.listings == (if CtypeDigit(branchId) then ResolveBranches(w, listing).w.listings else w.listings)
    ensures r.w.resolved.Some? ==> r.w.resolved.value.branchId == ResolveBranches(w, listing).w.resolved.value.branchId
    ensures r.w.resolved.Some? ==> r.w.resolved.value.defaultBranchId == ResolveBranches(w, listing).w.resolved.value.defaultBranchId
    ensures r.w.resolved.Some? ==> r.w.resolved.value.branches.Keys == ResolveBranches(w, listing).w.resolved.value.branches.Keys
  {
    if !CtypeDigit(branchId) then Step(w, Err(Fail(NotANumberMessage(branchId))))
    else
      var s := ResolveBranches(w, listing);
      if s.out.Err? then Step(s.w, Err(s.out.error))
      else
        var res := s.w.resolved.value;
        if branchId !in res.branches then Step(s.w, Err(Fail(NoSuchBranchMessage(branchId))))
        else if res.branches[branchId].client.Some? then Step(s.w, Ok(res.branches[branchId].client.value))
        else
          Step(CacheClient(s.w, branchId), Ok(Build(s.w, Some(branchId))))
  }

  /** The last step of getClientForBranch: build the branch's client and
      store it in the branch object, leaving every other branch as it was. */
  function CacheClient(w: ClientWrapper, branchId: string): (r: ClientWrapper)
    requires Inv(w) && w.resolved.Some? && CtypeDigit(branchId)
    requires branchId in w.resolved.value.branches && w.resolved.value.branches[branchId].client.None?
    ensures Inv(r) && r.resolved.Some?
    ensures r.resolved.value.branches.Keys == w.resolved.value.branches.Keys
    ensures r.resolved.value.branches[branchId].client == Some(Build(w, Some(branchId)))
    ensures forall k :: k in w.resolved.value.branches && k != branchId ==>
              r.resolved.value.branches[k] == w.resolved.value.branches[k]
    ensures r.resolved.value.branchId == w.resolved.value.branchId
    ensures r.resolved.value.defaultBranchId == w.resolved.value.defaultBranchId
    ensures w == r.(resolved := w.resolved, minted := w.minted) && r.minted == w.minted + 1
  {
    var res := w.resolved.value;
    var c := Build(w, Some(branchId));
    var res' := res.(branches := res.branches[branchId := WithClient(res.branches[branchId], c)]);
    w.(resolved := Some(res'), minted := w.minted + 1)
  }

  /** `getBranchClient`: the client for the configured branch. */
  function GetBranchClient(w: ClientWrapper, listing: seq<ListedBranch>): (r: Step<Client>)
    requires Inv(w)
    ensures Inv(r.w)
    ensures r.out.Ok? <==> ResolveBranches(w, listing).out.Ok? && CtypeDigit(ResolveBranches(w, listing).w.resolved.value.branchId)
    ensures r.out.Ok? ==> r.w.resolved.Some? && r.out.value.branch == Some(r.w.resolved.value.branchId)
    ensures r.out.Ok? ==> Configured(r.out.value, w.options)
    ensures r.w.options == w.options && r.w.storageToken == w.storageToken
  {
    var s := GetBranchId(w, listing);
    if s.out.Err? then Step(s.w, Err(s.out.error))
    else GetClientForBranch(s.w, listing, s.out.value)
  }

  /** `getClientForDefaultBranch`: the client for the default branch. */
  function GetClientForDefaultBranch(w: ClientWrapper, listing: seq<ListedBranch>): (r: Step<Client>)
    requires Inv(w)
    ensures Inv(r.w)
    ensures r.out.Ok? <==> ResolveBranches(w, listing).out.Ok? && CtypeDigit(ResolveBranches(w, listing).w.resolved.value.defaultBranchId)
    ensures r.out.Ok? ==> r.w.resolved.Some? && r.out.value.branch == Some(r.w.resolved.value.defaultBranchId)
    ensures r.w.options == w.options && r.w.storageToken == w.storageToken
  {
    var s := GetDefaultBranch(w, listing);
    if s.out.Err? then Step(s.w, Err(s.out.error))
    else GetClientForBranch(s.w, listing, s.out.value.id)
  }

  /** `getTableAndFileStorageClient`: the branch client when useBranchStorage
      is exactly true, the basic client when it is false or null. */
  function GetTableAndFileStorageClient(w: ClientWrapper, listing: seq<ListedBranch>): (r: Step<Client>)
    requires Inv(w)
    ensures Inv(r.w)
    ensures w.options.useBranchStorage == Some(true) ==> r == GetBranchClient(w, listing)
    ensures w.options.useBranchStorage != Some(true) ==>
              r.out.Ok? && r.out.value == GetBasicClient(w).1 && r.w == GetBasicClient(w).0
    ensures r.out.Ok? ==> (r.out.value.branch.Some? <==> w.options.useBranchStorage == Some(true))
  {
    if w.options.useBranchStorage == Some(true) then GetBranchClient(w, listing)
    else
      var (w1, c) := GetBasicClient(w);
      Step(w1, Ok(c))
  }

  /** `getToken`: the cached token view, built on first use from the branch
      client's token-verification answer `tokenInfo` and the token string
      the branch client was constructed with. */
  function GetToken(w: ClientWrapper, listing: seq<ListedBranch>, tokenInfo: seq<Entry>): (r: Step<Tokens.StorageApiToken>)
    requires Inv(w)
    ensures Inv(r.w)
    ensures w.storageToken.Some? ==> r == Step(w, Ok(w.storageToken.value))
    ensures w.storageToken.None? && r.out.Ok? ==>
              && Tokens.GetTokenInfo(r.out.value) == tokenInfo
              && Tokens.GetTokenValue(r.out.value) == (if w.options.token.Some? then w.options.token.value else "")
    ensures r.out.Ok? ==> r.w.storageToken == Some(r.out.value)
    ensures r.out.Ok? <==> w.storageToken.Some? || GetBranchClient(w, listing).out.Ok?
  {
    if w.storageToken.Some? then Step(w, Ok(w.storageToken.value))
    else
      var s1 := GetBranchClient(w, listing);
      if s1.out.Err? then Step(s1.w, Err(s1.out.error))
      else
        var s2 := GetBranchClient(s1.w, listing);
        match s2.out
        case Err(e) => Step(s2.w, Err(e))
        case Ok(c) =>
          Options.ConstructedToken(w.options);
          var token := Tokens.New(tokenInfo, TokenString(c));
          Step(s2.w.(storageToken := Some(token)), Ok(token))
  }

  /** `getClientOptionsReadOnly`: a copy of the options (with values there
      is nothing a caller could change through it). */
  function GetClientOptionsReadOnly(w: ClientWrapper): (r: Options.ClientOptions)
    ensures forall f :: Options.Get(r, f) == Options.Get(w.options, f)
  {
    w.options
  }
}

=== FILE: client_wrapper_properties.dfy ===
/** Properties that relate several calls on one ClientWrapper: what branch
    resolution yields, that it happens once, and that every client and the
    token view are built once and then reused. */
module WrapperProperties {
  import opened Outcome
  import opened Php
  import Options
  import opened Branches
  import opened Wrapper

  /** A listing whose default branch survives the `empty()` check. */
  predicate HasUsableDefault(l: seq<ListedBranch>)
  {
    DefaultBranchId(l).Some? && !EmptyString(DefaultBranchId(l).value)
  }

  /** With a null or "default" branch id the wrapper is on the last branch
      flagged default: its id, its name, and isDefault true, provided no
      later record repeats that id. */
  lemma {:induction false} ResolvesToDefaultBranch(w: ClientWrapper, l: seq<ListedBranch>, i: int)
    requires Inv(w) && w.resolved.None?
    requires SelectsDefault(w.options.branchId)
    requires LastDefault(l, i) && !EmptyString(Key(l[i])) && LastWithKey(l, i)
    ensures GetBranchId(w, l).out == Ok(Key(l[i]))
    ensures GetBranchName(w, l).out == Ok(ToStr(l[i].name))
    ensures IsDefaultBranch(w, l).out == Ok(true)
    ensures IsDevelopmentBranch(w, l).out == Ok(false)
  {
    DefaultBranchIdIsLastDefault(l);
    var j :| LastDefault(l, j) && Key(l[j]) == DefaultBranchId(l).value;
    assert i == j;
    BuildBranchesKeepsLast(l, i);
  }

  /** getDefaultBranch returns the branch built from the last record flagged
      default (its id, name and flag), provided no later record repeats that
      id and resolution succeeds. */
  lemma {:induction false} DefaultBranchIsLastDefaultRecord(w: ClientWrapper, l: seq<ListedBranch>, i: int)
    requires Inv(w) && w.resolved.None?
    requires LastDefault(l, i) && !EmptyString(Key(l[i])) && LastWithKey(l, i)
    requires SelectsDefault(w.options.branchId) || exists j :: 0 <= j < |l| && Key(l[j]) == w.options.branchId.value
    ensures GetDefaultBranch(w, l).out == Ok(FromListing(l[i]))
  {
    DefaultBranchIdIsLastDefault(l);
    var j :| LastDefault(l, j) && Key(l[j]) == DefaultBranchId(l).value;
    assert i == j;
    ResolveSucceeds(l, w.options.branchId);
    BuildBranchesKeepsLast(l, i);
  }

  /** A configured id other than "default" is used verbatim; the wrapper
      then reports the name and flag of the last record with that id. */
  lemma {:induction false} ResolvesToConfiguredBranch(w: ClientWrapper, l: seq<ListedBranch>, i: int)
    requires Inv(w) && w.resolved.None?
    requires !SelectsDefault(w.options.branchId)
    requires HasUsableDefault(l)
    requires LastWithKey(l, i) && Key(l[i]) == w.options.branchId.value
    ensures GetBranchId(w, l).out == Ok(w.options.branchId.value)
    ensures GetBranchName(w, l).out == Ok(ToStr(l[i].name))
    ensures IsDefaultBranch(w, l).out == Ok(Truthy(l[i].isDefault))
  {
    BuildBranchesKeys(l, Key(l[i]));
    BuildBranchesKeepsLast(l, i);
  }

  /** A configured id that no record carries makes resolution fail with a
      message naming that id. */
  lemma {:induction false} UnknownBranchIdFails(w: ClientWrapper, l: seq<ListedBranch>)
    requires Inv(w) && w.resolved.None?
    requires !SelectsDefault(w.options.branchId) && HasUsableDefault(l)
    requires forall i :: 0 <= i < |l| ==> Key(l[i]) != w.options.branchId.value
    ensures var e := Fail("Can not resolve branchId: \"" + w.options.branchId.value + "\".");
            && GetBranchId(w, l).out == Err(e) && GetBranchName(w, l).out == Err(e)
            && IsDefaultBranch(w, l).out == Err(e) && IsDevelopmentBranch(w, l).out == Err(e)
            && GetDefaultBranch(w, l).out == Err(e) && GetBranch(w, l).out == Err(e)
  {
    BuildBranchesKeys(l, w.options.branchId.value);
  }

  /** Without any record flagged default, every resolving accessor fails
      with the same message, naming the configured id ("" for null). This
      check comes before the target-id check. */
  lemma {:induction false} MissingDefaultFails(w: ClientWrapper, l: seq<ListedBranch>)
    requires Inv(w) && w.resolved.None?
    requires forall i :: 0 <= i < |l| ==> !Truthy(l[i].isDefault)
    ensures var e := Fail("Can not find default branch for branchId: \"" + Shown(w.options.branchId) + "\".");
            && GetBranchId(w, l).out == Err(e) && GetBranchName(w, l).out == Err(e)
            && IsDefaultBranch(w, l).out == Err(e) && IsDevelopmentBranch(w, l).out == Err(e)
            && GetDefaultBranch(w, l).out == Err(e) && GetBranch(w, l).out == Err(e)
  {
  }

  /** Once resolved, no resolving accessor asks for the listing again: the
      state is left as it is and the answer does not depend on the listing. */
  lemma {:induction false} ResolvedWrapperIgnoresListing(w: ClientWrapper, l1: seq<ListedBranch>, l2: seq<ListedBranch>, branchId: string)
    requires Inv(w) && w.resolved.Some?
    ensures GetBranchId(w, l1) == GetBranchId(w, l2) && GetBranchId(w, l1).w == w
    ensures GetBranchName(w, l1) == GetBranchName(w, l2) && GetBranchName(w, l1).w == w
    ensures IsDefaultBranch(w, l1) == IsDefaultBranch(w, l2) && IsDefaultBranch(w, l1).w == w
    ensures IsDevelopmentBranch(w, l1) == IsDevelopmentBranch(w, l2) && IsDevelopmentBranch(w, l1).w == w
    ensures GetDefaultBranch(w, l1) == GetDefaultBranch(w, l2) && GetDefaultBranch(w, l1).w == w
    ensures GetBranch(w, l1) == GetBranch(w, l2) && GetBranch(w, l1).w == w
    ensures GetClientForBranch(w, l1, branchId) == GetClientForBranch(w, l2, branchId)
    ensures GetClientForBranch(w, l1, branchId).w.listings == w.listings
  {
  }

  /** The listing is fetched exactly once: a first successful accessor call
      on a new wrapper fetches it, and a second one returns the same branch
      without fetching, whatever the endpoint would now answer. */
  lemma {:induction false} ListingFetchedOnce(o: Options.ClientOptions, l1: seq<ListedBranch>, l2: seq<ListedBranch>, i: int)
    requires LastDefault(l1, i) && !EmptyString(Key(l1[i]))
    requires SelectsDefault(o.branchId) || exists j :: 0 <= j < |l1| && Key(l1[j]) == o.branchId.value
    ensures var s1 := GetDefaultBranch(New(o), l1);
            && s1.out.Ok? && s1.w.listings == 1
            && GetDefaultBranch(s1.w, l2) == s1
  {
    DefaultBranchIdIsLastDefault(l1);
    ResolveSucceeds(l1, o.branchId);
    var s1 := GetDefaultBranch(New(o), l1);
    ResolvedWrapperIgnoresListing(s1.w, l1, l2, "");
  }

  /** isDevelopmentBranch is the negation of isDefaultBranch, with the same
      effect on the wrapper. */
  lemma {:induction false} DevelopmentIsNotDefault(w: ClientWrapper, l: seq<ListedBranch>)
    requires Inv(w)
    ensures IsDevelopmentBranch(w, l).w == IsDefaultBranch(w, l).w
    ensures IsDevelopmentBranch(w, l).out.Ok? <==> IsDefaultBranch(w, l).out.Ok?
    ensures IsDevelopmentBranch(w, l).out.Ok? ==> IsDevelopmentBranch(w, l).out.value == !IsDefaultBranch(w, l).out.value
    ensures IsDevelopmentBranch(w, l).out.Err? ==> IsDevelopmentBranch(w, l).out == IsDefaultBranch(w, l).out
  {
  }

  /** The branch returned as default is flagged default (ids distinct). */
  lemma {:induction false} DefaultBranchIsFlagged(w: ClientWrapper, l: seq<ListedBranch>)
    requires Inv(w) && w.resolved.None? && DistinctIds(l)
    requires GetDefaultBranch(w, l).out.Ok?
    ensures GetDefaultBranch(w, l).out.value.isDefault
  {
    DefaultBranchIsDefault(l, w.options.branchId);
  }

  /** getBasicClient builds its client once and then returns that object. */
  lemma {:induction false} BasicClientBuiltOnce(w: ClientWrapper)
    requires Inv(w)
    ensures GetBasicClient(GetBasicClient(w).0) == GetBasicClient(w)
  {
  }

  /** getClientForBranch returns the same object for the same id, without
      fetching the listing again. */
  lemma {:induction false} ClientForBranchCached(w: ClientWrapper, l1: seq<ListedBranch>, l2: seq<ListedBranch>, branchId: string)
    requires Inv(w)
    requires GetClientForBranch(w, l1, branchId).out.Ok?
    ensures var s1 := GetClientForBranch(w, l1, branchId);
            GetClientForBranch(s1.w, l2, branchId) == s1
  {
  }

  /** Clients for different ids are different objects, and none of them is
      the basic client. */
  lemma {:induction false} BranchClientsAreDistinct(w: ClientWrapper, l: seq<ListedBranch>, x: string, y: string)
    requires Inv(w) && x != y
    requires GetClientForBranch(w, l, x).out.Ok?
    requires GetClientForBranch(GetClientForBranch(w, l, x).w, l, y).out.Ok?
    ensures var s1 := GetClientForBranch(w, l, x);
            var s2 := GetClientForBranch(s1.w, l, y);
            && s1.out.value != s2.out.value
            && GetBasicClient(s2.w).1 != s1.out.value
            && GetBasicClient(s2.w).1 != s2.out.value
  {
  }

  /** getBranchClient keeps returning the object it returned first. */
  lemma {:induction false} BranchClientCached(w: ClientWrapper, l1: seq<ListedBranch>, l2: seq<ListedBranch>)
    requires Inv(w)
    requires GetBranchClient(w, l1).out.Ok?
    ensures var s1 := GetBranchClient(w, l1);
            GetBranchClient(s1.w, l2) == s1
  {
  }

  /** On the default branch — selected by null or "default", or by the
      default branch's own id — getBranchClient and getClientForDefaultBranch
      hand out one and the same object, in either order. */
  lemma {:induction false} DefaultBranchSharesClient(w: ClientWrapper, l: seq<ListedBranch>)
    requires Inv(w)
    requires GetBranchId(w, l).out.Ok? && GetDefaultBranch(w, l).out.Ok?
    requires GetBranchId(w, l).out.value == GetDefaultBranch(w, l).out.value.id
    requires GetClientForDefaultBranch(w, l).out.Ok?
    ensures var s1 := GetClientForDefaultBranch(w, l);
            GetBranchClient(s1.w, l) == s1
    ensures var s1 := GetBranchClient(w, l);
            GetClientForDefaultBranch(s1.w, l) == s1
  {
  }

  /** When every listed id is a non-negative integer, the default branch's
      client can always be obtained once resolution succeeds. */
  lemma {:induction false} IntegerIdsServeDefaultClient(w: ClientWrapper, l: seq<ListedBranch>, d: int)
    requires Inv(w) && w.resolved.None?
    requires forall i :: 0 <= i < |l| ==> l[i].id.Int? && l[i].id.i >= 0
    requires LastDefault(l, d) && !EmptyString(Key(l[d]))
    requires SelectsDefault(w.options.branchId) || exists j :: 0 <= j < |l| && Key(l[j]) == w.options.branchId.value
    ensures GetClientForDefaultBranch(w, l).out.Ok?
  {
    DefaultBranchIdIsLastDefault(l);
    var i :| LastDefault(l, i) && Key(l[i]) == DefaultBranchId(l).value;
    assert i == d;
    ResolveSucceeds(l, w.options.branchId);
    assert Resolve(l, w.options.branchId).value.defaultBranchId == Key(l[d]);
  }

  /** getToken builds the token view once; later calls return it unchanged
      whatever the remote side would now answer. */
  lemma {:induction false} TokenComputedOnce(w: ClientWrapper, l1: seq<ListedBranch>, info1: seq<Entry>,
                                             l2: seq<ListedBranch>, info2: seq<Entry>)
    requires Inv(w)
    requires GetToken(w, l1, info1).out.Ok?
    ensures var s1 := GetToken(w, l1, info1);
            GetToken(s1.w, l2, info2) == s1
  {
  }

  /** getBranchClient is getClientForBranch(getBranchId()): the same answer
      always, and the same wrapper state whenever the id is numeric (a
      direct call with a non-numeric id fails before resolving). */
  lemma {:induction false} BranchClientIsClientForBranchId(w: ClientWrapper, l: seq<ListedBranch>)
    requires Inv(w) && GetBranchId(w, l).out.Ok?
    ensures GetBranchClient(w, l).out == GetClientForBranch(w, l, GetBranchId(w, l).out.value).out
    ensures CtypeDigit(GetBranchId(w, l).out.value) ==>
              GetBranchClient(w, l) == GetClientForBranch(w, l, GetBranchId(w, l).out.value)
  {
    var s := GetBranchId(w, l);
    assert ResolveBranches(s.w, l) == Step(s.w, Ok(()));
  }

  /** getClientForDefaultBranch is getClientForBranch on the default id,
      in the same sense. */
  lemma {:induction false} DefaultClientIsClientForDefaultId(w: ClientWrapper, l: seq<ListedBranch>)
    requires Inv(w) && GetDefaultBranch(w, l).out.Ok?
    ensures var id := ResolveBranches(w, l).w.resolved.value.defaultBranchId;
            && GetClientForDefaultBranch(w, l).out == GetClientForBranch(w, l, id).out
            && (CtypeDigit(id) ==> GetClientForDefaultBranch(w, l) == GetClientForBranch(w, l, id))
  {
    var s := GetDefaultBranch(w, l);
    assert ResolveBranches(s.w, l) == Step(s.w, Ok(()));
    assert s.out.value.id == s.w.resolved.value.defaultBranchId;
  }
}

=== FILE: options_store.dfy ===
/** PHP object identity for option objects. The factories keep references to
    ClientOptions objects, clone them and mutate the clones; whether a
    mutation is visible through another reference depends on which object
    each reference denotes. A Heap maps references (indices) to the current
    contents of each object. */
module Store {
  import Options

  type Ref = nat

  datatype Heap = Heap(objects: seq<Options.ClientOptions>)

  predicate Live(h: Heap, r: Ref)
  {
    r < |h.objects|
  }

  /** `h2` only adds objects: every object of `h` keeps its contents. */
  predicate Extends(h: Heap, h2: Heap)
  {
    |h.objects| <= |h2.objects| && forall r :: 0 <= r < |h.objects| ==> h2.objects[r] == h.objects[r]
  }

  /** `new`/`clone`: a new object with contents `o`, distinct from all others. */
  function Alloc(h: Heap, o: Options.ClientOptions): (r: (Heap, Ref))
    ensures Live(r.0, r.1) && !Live(h, r.1)
    ensures r.0.objects[r.1] == o
    ensures Extends(h, r.0)
  {
    (Heap(h.objects + [o]), |h.objects|)
  }

  /** `clone $object`: a new object with the same field values. */
  function Clone(h: Heap, r: Ref): (c: (Heap, Ref))
    requires Live(h, r)
    ensures Live(c.0, c.1) && !Live(h, c.1) && c.1 != r
    ensures c.0.objects[c.1] == h.objects[r]
    ensures Extends(h, c.0)
  {
    Alloc(h, h.objects[r])
  }

  /** A mutation through reference `r` (any setter or merge on that object):
      that object gets contents `o`, every other object is untouched. */
  function Write(h: Heap, r: Ref, o: Options.ClientOptions): (h2: Heap)
    requires Live(h, r)
    ensures |h2.objects| == |h.objects|
    ensures h2.objects[r] == o
    ensures forall q :: 0 <= q < |h.objects| && q != r ==> h2.objects[q] == h.objects[q]
  {
    Heap(h.objects[r := o])
  }
}

=== FILE: outcome.dfy ===
/** Failure-carrying results shared by every module of the model.
    The PHP code signals failure by throwing a ClientException that carries a
    message and a numeric code (0 unless a code is given). */
module Outcome {

  /** PHP's nullable value: `None` stands for `null`. */
  datatype Option<+T> = None | Some(value: T)
  {
    /** PHP's `$this ?? $other`: this value unless it is null. */
    function OrElse(other: Option<T>): Option<T>
    {
      if Some? then this else other
    }
  }

  /** The exception every failing operation of the core throws. */
  datatype ClientException = ClientException(message: string, code: int)

  /** Either the value the PHP method returns or the exception it throws. */
  datatype Result<+T> = Ok(value: T) | Err(error: ClientException)

  /** An exception raised without an explicit code (PHP's default code 0). */
  function Fail(message: string): ClientException
  {
    ClientException(message, 0)
  }
}

=== FILE: php.dfy ===
/** The few PHP runtime semantics the core relies on: scalar/array values as
    decoded from JSON, the `(string)` and `(bool)` casts, `empty()`,
    `ctype_digit()`, `str_starts_with()` and array-key lookup. */
module Php {
  import opened Outcome

  /** A PHP value as found in decoded API responses. An array is an ordered
      list of key/value entries; list arrays use keys "0", "1", .... */
  datatype Value =
    | Null
    | Bool(b: bool)
    | Int(i: int)
    | Str(s: string)
    | Arr(entries: seq<Entry>)

  datatype Entry = Entry(key: string, val: Value)

  /** Entry `i` is the first one stored under `key` (PHP keys are unique,
      so in a well-formed array it is the only one). */
  predicate FirstWith(entries: seq<Entry>, key: string, i: int)
  {
    0 <= i < |entries| && entries[i].key == key
    && forall j :: 0 <= j < i ==> entries[j].key != key
  }

  /** `$array[$key] ?? null`: the value stored under `key`, or None when the
      key is absent or holds null. */
  function Lookup(entries: seq<Entry>, key: string): (r: Option<Value>)
    ensures r.Some? <==> exists i :: FirstWith(entries, key, i) && entries[i].val != Null
    ensures r.Some? ==> exists i :: FirstWith(entries, key, i) && entries[i].val == r.value
    ensures (forall i :: 0 <= i < |entries| ==> entries[i].key != key) ==> r.None?
  {
    if |entries| == 0 then None
    else if entries[0].key == key then
      (if entries[0].val == Null then None else Some(entries[0].val))
    else Lookup(entries[1..], key)
  }

  /** `$value[$key] ?? null` on an arbitrary value: only arrays have keys. */
  function At(v: Option<Value>, key: string): Option<Value>
  {
    if v.Some? && v.value.Arr? then Lookup(v.value.entries, key) else None
  }

  /** The values of an array, in order (what `in_array` searches). */
  function Values(entries: seq<Entry>): (r: seq<Value>)
    ensures |r| == |entries|
    ensures forall i :: 0 <= i < |entries| ==> r[i] == entries[i].val
  {
    if |entries| == 0 then [] else [entries[0].val] + Values(entries[1..])
  }

  /** PHP's `empty()`: null, false, 0, "", "0" and the empty array. */
  predicate IsEmpty(v: Value)
  {
    match v
    case Null => true
    case Bool(b) => !b
    case Int(i) => i == 0
    case Str(s) => EmptyString(s)
    case Arr(e) => |e| == 0
  }

  /** `empty()` on a string: "" and "0" both count as empty. */
  predicate EmptyString(s: string)
  {
    s == "" || s == "0"
  }

  /** `empty($array[$key])`: absent keys are empty too. */
  predicate EmptyAt(v: Option<Value>)
  {
    v.None? || IsEmpty(v.value)
  }

  /** The `(bool)` cast, which is also what `if ($value)` tests. */
  predicate Truthy(v: Value)
  {
    !IsEmpty(v)
  }

  predicate IsDigit(c: char)
  {
    '0' <= c <= '9'
  }

  /** `ctype_digit($s)` for a string argument: non-empty and only decimal digits. */
  predicate CtypeDigit(s: string)
  {
    |s| > 0 && forall i :: 0 <= i < |s| ==> IsDigit(s[i])
  }

  function DigitChar(d: nat): (c: char)
    requires d < 10
    ensures IsDigit(c)
  {
    (('0' as int) + d) as char
  }

  function DigitValue(c: char): (d: nat)
    requires IsDigit(c)
    ensures d < 10
  {
    (c as int) - ('0' as int)
  }

  /** Decimal rendering of a natural number, without leading zeros. */
  function NatToString(n: nat): (s: string)
    ensures CtypeDigit(s)
    ensures n > 0 ==> s[0] != '0'
    decreases n
  {
    if n < 10 then [DigitChar(n)]
    else NatToString(n / 10) + [DigitChar(n % 10)]
  }

  /** The `(string)` cast of an integer. */
  function IntToString(i: int): string
  {
    if i < 0 then "-" + NatToString(-i) else NatToString(i)
  }

  /** The value of a string of decimal digits (the reverse of NatToString). */
  function ParseDigits(s: string): nat
    requires forall i :: 0 <= i < |s| ==> IsDigit(s[i])
  {
    if |s| == 0 then 0 else ParseDigits(s[..|s| - 1]) * 10 + DigitValue(s[|s| - 1])
  }

  /** Rendering a natural number and reading it back gives the number. */
  lemma {:induction false} ParseNatToString(n: nat)
    ensures ParseDigits(NatToString(n)) == n
    decreases n
  {
    var s := NatToString(n);
    if n >= 10 {
      ParseNatToString(n / 10);
      assert s[..|s| - 1] == NatToString(n / 10);
    }
  }

  /** The `(string)` cast of an arbitrary value. Arrays render as "Array"
      (PHP also emits a warning, which has no effect on the result). */
  function ToStr(v: Value): (s: string)
    ensures v.Int? && v.i >= 0 ==> CtypeDigit(s)
    ensures v.Str? ==> s == v.s
    ensures v.Null? ==> s == ""
  {
    match v
    case Null => ""
    case Bool(b) => if b then "1" else ""
    case Int(i) => IntToString(i)
    case Str(s) => s
    case Arr(_) => "Array"
  }

  /** `str_starts_with($s, $prefix)`. */
  predicate StartsWith(s: string, prefix: string)
  {
    |prefix| <= |s| && s[..|prefix|] == prefix
  }
}

=== FILE: plain_factory.dfy ===
/** The plain factory (src/Factory/StorageClientPlainFactory.php): keeps the
    options object it is given (by reference) and builds each wrapper from a
    clone of it overlaid with per-call options. */
module PlainFactory {
  import opened Store
  import Options
  import Wrapper

  datatype StorageClientPlainFactory = StorageClientPlainFactory(clientOptions: Ref)

  /** The constructor stores the caller's reference itself, not a copy. */
  function New(h: Heap, clientOptions: Ref): (f: StorageClientPlainFactory)
    requires Live(h, clientOptions)
    ensures f.clientOptions == clientOptions
    ensures Live(h, f.clientOptions) && h.objects[f.clientOptions] == h.objects[clientOptions]
  {
    StorageClientPlainFactory(clientOptions)
  }

  /** `getClientOptionsReadOnly`: a new object equal to the factory's. */
  function GetClientOptionsReadOnly(h: Heap, f: StorageClientPlainFactory): (r: (Heap, Ref))
    requires Live(h, f.clientOptions)
    ensures Extends(h, r.0) && Live(r.0, r.1) && !Live(h, r.1)
    ensures r.0.objects[r.1] == h.objects[f.clientOptions]
  {
    Clone(h, f.clientOptions)
  }

  /** `createClientWrapper`: clone the factory's options, merge the given
      options into the clone, wrap the clone. */
  function CreateClientWrapper(h: Heap, f: StorageClientPlainFactory, clientOptions: Ref): (r: (Heap, Wrapper.ClientWrapper))
    requires Live(h, f.clientOptions) && Live(h, clientOptions)
    ensures Extends(h, r.0)
    ensures r.1 == Wrapper.New(Options.AddValuesFrom(h.objects[f.clientOptions], h.objects[clientOptions]))
  {
    var (h1, copy) := Clone(h, f.clientOptions);
    var merged := Options.AddValuesFrom(h1.objects[copy], h1.objects[clientOptions]);
    (Write(h1, copy, merged), Wrapper.New(merged))
  }

  /** Changing the object returned by getClientOptionsReadOnly leaves what
      the factory returns next unchanged. */
  lemma {:induction false} ReadOnlyCopyIsIndependent(h: Heap, f: StorageClientPlainFactory, changed: Options.ClientOptions)
    requires Live(h, f.clientOptions)
    ensures var (h1, copy) := GetClientOptionsReadOnly(h, f);
            var h2 := Write(h1, copy, changed);
            GetClientOptionsReadOnly(h2, f).0.objects[GetClientOptionsReadOnly(h2, f).1] == h.objects[f.clientOptions]
  {
  }

  /** Creating a wrapper changes neither the factory's options nor the
      caller's; the wrapper gets no run id unless one of them sets it. */
  lemma {:induction false} CreateLeavesInputsUnchanged(h: Heap, f: StorageClientPlainFactory, clientOptions: Ref)
    requires Live(h, f.clientOptions) && Live(h, clientOptions)
    ensures var (h2, w) := CreateClientWrapper(h, f, clientOptions);
            && h2.objects[f.clientOptions] == h.objects[f.clientOptions]
            && h2.objects[clientOptions] == h.objects[clientOptions]
            && (h.objects[f.clientOptions].runId.None? && h.objects[clientOptions].runId.None? ==> w.options.runId.None?)
  {
    var (h2, w) := CreateClientWrapper(h, f, clientOptions);
    assert Options.Get(w.options, Options.RunId) == Options.TextSlot(w.options.runId);
  }

  /** Because the factory holds the caller's object itself, a later change
      to that object is seen by the factory. */
  lemma {:induction false} FactorySharesCallersObject(h: Heap, clientOptions: Ref, changed: Options.ClientOptions)
    requires Live(h, clientOptions)
    ensures var f := New(h, clientOptions);
            var h2 := Write(h, clientOptions, changed);
            GetClientOptionsReadOnly(h2, f).0.objects[GetClientOptionsReadOnly(h2, f).1] == changed
  {
  }
}

=== FILE: request_factory.dfy ===
/** The request factory (src/Factory/StorageClientRequestFactory.php): builds
    a wrapper per HTTP request, taking the token, the authentication method
    and the run id from the request headers. */
module RequestFactory {
  import opened Outcome
  import opened Php
  import opened Store
  import Options
  import Wrapper

  const TOKEN_HEADER: string := "X-StorageApi-Token"
  const AUTHORIZATION_HEADER: string := "Authorization"
  const RUN_ID_HEADER: string := "X-KBC-RunId"
  const BEARER_PREFIX: string := "Bearer "
  const RUN_ID_PREFIX: string := "run-"

  const OAUTH_TOKEN_MISSING: string :=
    "OAuth token must be provided in Authorization header with Bearer prefix."
  const TOKEN_MISSING: string :=
    "Storage API token must be supplied in " + TOKEN_HEADER + " header or OAuth token in "
    + AUTHORIZATION_HEADER + " header with Bearer prefix."

  /** Request headers, by exact name. */
  type Headers = map<string, string>

  /** `(string) $request->headers->get($name)`: an absent header reads as "". */
  function Header(headers: Headers, name: string): string
  {
    if name in headers then headers[name] else ""
  }

  datatype StorageClientRequestFactory = StorageClientRequestFactory(clientOptions: Ref)

  /** The constructor copies the caller's options into a new object of its
      own. */
  function New(h: Heap, clientOptions: Ref): (r: (Heap, StorageClientRequestFactory))
    requires Live(h, clientOptions)
    ensures Extends(h, r.0) && Live(r.0, r.1.clientOptions) && !Live(h, r.1.clientOptions)
    ensures r.0.objects[r.1.clientOptions] == h.objects[clientOptions]
  {
    var (h1, own) := Alloc(h, Options.Empty);
    Options.AddValuesIntoEmpty(h1.objects[clientOptions]);
    var h2 := Write(h1, own, Options.AddValuesFrom(h1.objects[own], h1.objects[clientOptions]));
    (h2, StorageClientRequestFactory(own))
  }

  /** `getClientOptionsReadOnly`: a new object equal to the factory's. */
  function GetClientOptionsReadOnly(h: Heap, f: StorageClientRequestFactory): (r: (Heap, Ref))
    requires Live(h, f.clientOptions)
    ensures Extends(h, r.0) && Live(r.0, r.1) && !Live(h, r.1)
    ensures r.0.objects[r.1] == h.objects[f.clientOptions]
  {
    Clone(h, f.clientOptions)
  }

  /** A Bearer authorization: the header starts with "Bearer ". */
  predicate IsBearer(authorization: string)
  {
    authorization != "" && StartsWith(authorization, BEARER_PREFIX)
  }

  /** `getTokenAndAuthMethodFromRequest`: a Bearer Authorization header wins
      and yields an OAuth token; otherwise the Storage API token header is
      used. Both failures carry code 401. */
  function TokenAndAuthMethod(headers: Headers): (r: Result<(string, string)>)
    ensures r.Ok? ==> r.value.0 != "" && Options.ValidAuthMethod(Some(r.value.1))
    ensures r.Err? ==> r.error.code == 401
    ensures var authorization := Header(headers, AUTHORIZATION_HEADER);
            IsBearer(authorization) ==>
              && (r.Ok? <==> |authorization| > |BEARER_PREFIX|)
              && (r.Ok? ==> BEARER_PREFIX + r.value.0 == authorization && r.value.1 == Options.AUTH_METHOD_OAUTH)
              && (r.Err? ==> r.error.message == OAUTH_TOKEN_MISSING)
    ensures var authorization := Header(headers, AUTHORIZATION_HEADER);
            !IsBearer(authorization) ==>
              && (r.Ok? <==> Header(headers, TOKEN_HEADER) != "")
              && (r.Ok? ==> r.value == (Header(headers, TOKEN_HEADER), Options.AUTH_METHOD_TOKEN))
              && (r.Err? ==> r.error.message == TOKEN_MISSING)
  {
    var token := Header(headers, TOKEN_HEADER);
    var authorization := Header(headers, AUTHORIZATION_HEADER);
    if IsBearer(authorization) then
      var oauthToken := authorization[|BEARER_PREFIX|..];
      assert authorization == BEARER_PREFIX + oauthToken;
      if oauthToken == "" then Err(ClientException(OAUTH_TOKEN_MISSING, 401))
      else Ok((oauthToken, Options.AUTH_METHOD_OAUTH))
    else if token == "" then
      Err(ClientException(TOKEN_MISSING, 401))
    else
      Ok((token, Options.AUTH_METHOD_TOKEN))
  }

  /** `getRunId`: the run id header if non-empty, else the configured
      generator applied to the options, else "run-" followed by a unique
      suffix. `apply` stands for calling a generator; `suffix` for the
      output of `uniqid`. */
  function RunId(headers: Headers, options: Options.ClientOptions,
                 apply: (Options.GeneratorRef, Options.ClientOptions) -> string, suffix: string): (r: string)
    ensures Header(headers, RUN_ID_HEADER) != "" ==> r == Header(headers, RUN_ID_HEADER)
    ensures Header(headers, RUN_ID_HEADER) == "" && options.runIdGenerator.Some? ==>
              r == apply(options.runIdGenerator.value, options)
    ensures Header(headers, RUN_ID_HEADER) == "" && options.runIdGenerator.None? ==>
              StartsWith(r, RUN_ID_PREFIX) && r[|RUN_ID_PREFIX|..] == suffix
  {
    var header := Header(headers, RUN_ID_HEADER);
    if header != "" then header
    else if options.runIdGenerator.Some? then apply(options.runIdGenerator.value, options)
    else RUN_ID_PREFIX + suffix
  }

  /** The factory's options with the per-call options merged over them. */
  function Merged(h: Heap, f: StorageClientRequestFactory, extra: Option<Ref>): Options.ClientOptions
    requires Live(h, f.clientOptions) && (extra.Some? ==> Live(h, extra.value))
  {
    if extra.Some? then Options.AddValuesFrom(h.objects[f.clientOptions], h.objects[extra.value])
    else h.objects[f.clientOptions]
  }

  /** `createClientWrapper`: clone the factory's options, merge the per-call
      options, then set the token, the authentication method and the run id
      from the request. Fails exactly when the token lookup fails: an empty
      Bearer token, or no Bearer prefix and no X-StorageApi-Token. */
  function CreateClientWrapper(h: Heap, f: StorageClientRequestFactory, headers: Headers, extra: Option<Ref>,
                               apply: (Options.GeneratorRef, Options.ClientOptions) -> string, suffix: string)
    : (r: Result<(Heap, Wrapper.ClientWrapper)>)
    requires Live(h, f.clientOptions) && (extra.Some? ==> Live(h, extra.value))
    ensures r.Ok? <==> TokenAndAuthMethod(headers).Ok?
    ensures r.Err? ==> r.error == TokenAndAuthMethod(headers).error
    ensures r.Ok? ==> Extends(h, r.value.0)
    ensures r.Ok? ==>
              var (token, authMethod) := TokenAndAuthMethod(headers).value;
              var base := Merged(h, f, extra).(token := Some(token), authMethod := Some(authMethod));
              var o := r.value.1.options;
              && r.value.1 == Wrapper.New(o)
              && forall g :: Options.Get(o, g) ==
                   if g == Options.Token then Options.Text(token)
                   else if g == Options.AuthMethod then Options.Text(authMethod)
                   else if g == Options.RunId then Options.Text(RunId(headers, base, apply, suffix))
                   else Options.Get(Merged(h, f, extra), g)
  {
    var (h1, copy) := Clone(h, f.clientOptions);
    var merged := if extra.Some? then Options.AddValuesFrom(h1.objects[copy], h1.objects[extra.value])
                  else h1.objects[copy];
    match TokenAndAuthMethod(headers)
    case Err(e) => Err(e)
    case Ok((token, authMethod)) =>
      var withToken := Options.SetPlain(merged, Options.Token, Options.Text(token));
      match Options.SetAuthMethod(withToken, Some(authMethod))
      case Err(e) => Err(e)
      case Ok(withAuth) =>
        assert withAuth == merged.(token := Some(token), authMethod := Some(authMethod)) by {
          Options.FieldsDetermine(withAuth, merged.(token := Some(token), authMethod := Some(authMethod)));
        }
        var options := Options.SetPlain(withAuth, Options.RunId, Options.Text(RunId(headers, withAuth, apply, suffix)));
        Ok((Write(h1, copy, options), Wrapper.New(options)))
  }

  /** A Bearer Authorization header decides the outcome whatever the
      Storage API token header holds, including when it is absent. */
  lemma {:induction false} BearerWinsOverStorageToken(headers: Headers, token: string)
    requires IsBearer(Header(headers, AUTHORIZATION_HEADER))
    ensures TokenAndAuthMethod(headers[TOKEN_HEADER := token]) == TokenAndAuthMethod(headers)
    ensures TokenAndAuthMethod(headers - {TOKEN_HEADER}) == TokenAndAuthMethod(headers)
  {
    assert Header(headers[TOKEN_HEADER := token], AUTHORIZATION_HEADER) == Header(headers, AUTHORIZATION_HEADER);
    assert Header(headers - {TOKEN_HEADER}, AUTHORIZATION_HEADER) == Header(headers, AUTHORIZATION_HEADER);
  }

  /** An Authorization header that is not a Bearer one is ignored: the
      outcome is that of the same request without it. */
  lemma {:induction false} NonBearerAuthorizationIgnored(headers: Headers)
    requires !IsBearer(Header(headers, AUTHORIZATION_HEADER))
    ensures TokenAndAuthMethod(headers) == TokenAndAuthMethod(headers - {AUTHORIZATION_HEADER})
  {
    assert Header(headers - {AUTHORIZATION_HEADER}, TOKEN_HEADER) == Header(headers, TOKEN_HEADER);
    assert Header(headers - {AUTHORIZATION_HEADER}, AUTHORIZATION_HEADER) == "";
  }

  /** "Bearer " with nothing after it is refused even when a Storage API
      token header is present. */
  lemma EmptyBearerRefused(headers: Headers)
    requires Header(headers, AUTHORIZATION_HEADER) == BEARER_PREFIX
    ensures TokenAndAuthMethod(headers) == Err(ClientException(OAUTH_TOKEN_MISSING, 401))
  {
  }

  /** Every wrapper the factory creates has its token, authentication method
      and run id set from the request, whatever the configured options hold;
      without a run id header or generator the run id is "run-" + suffix. */
  lemma {:induction false} RequestOverridesConfiguredValues(h: Heap, f: StorageClientRequestFactory, headers: Headers,
                                                           extra: Option<Ref>,
                                                           apply: (Options.GeneratorRef, Options.ClientOptions) -> string,
                                                           suffix: string)
    requires Live(h, f.clientOptions) && (extra.Some? ==> Live(h, extra.value))
    requires TokenAndAuthMethod(headers).Ok?
    ensures var r := CreateClientWrapper(h, f, headers, extra, apply, suffix);
            var o := r.value.1.options;
            && r.Ok?
            && o.token == Some(TokenAndAuthMethod(headers).value.0)
            && o.authMethod == Some(TokenAndAuthMethod(headers).value.1)
            && o.runId.Some?
            && (Header(headers, RUN_ID_HEADER) == "" && Merged(h, f, extra).runIdGenerator.None? ==>
                  o.runId == Some(RUN_ID_PREFIX + suffix))
  {
    var r := CreateClientWrapper(h, f, headers, extra, apply, suffix);
    var o := r.value.1.options;
    assert Options.Get(o, Options.Token) == Options.Text(TokenAndAuthMethod(headers).value.0);
    assert Options.Get(o, Options.AuthMethod) == Options.Text(TokenAndAuthMethod(headers).value.1);
    assert Options.Get(o, Options.RunIdGenerator) == Options.Get(Merged(h, f, extra), Options.RunIdGenerator);
    assert Options.Get(o, Options.RunId).Text?;
  }

  /** The factory copies the caller's options: a later change to the
      caller's object is not seen by the factory (unlike the plain
      factory, which keeps the caller's object itself). */
  lemma {:induction false} FactoryIsolatedFromCaller(h: Heap, clientOptions: Ref, changed: Options.ClientOptions)
    requires Live(h, clientOptions)
    ensures var (h1, f) := New(h, clientOptions);
            var h2 := Write(h1, clientOptions, changed);
            var (h3, copy) := GetClientOptionsReadOnly(h2, f);
            h3.objects[copy] == h.objects[clientOptions]
  {
    var (h1, f) := New(h, clientOptions);
    assert f.clientOptions != clientOptions;
  }

  /** Creating wrappers never changes the factory's own options nor the
      per-call options object passed in. */
  lemma {:induction false} CreateLeavesInputsUnchanged(h: Heap, f: StorageClientRequestFactory, headers: Headers,
                                                       extra: Ref,
                                                       apply: (Options.GeneratorRef, Options.ClientOptions) -> string,
                                                       suffix: string)
    requires Live(h, f.clientOptions) && Live(h, extra)
    requires TokenAndAuthMethod(headers).Ok?
    ensures var r := CreateClientWrapper(h, f, headers, Some(extra), apply, suffix);
            && r.Ok?
            && r.value.0.objects[f.clientOptions] == h.objects[f.clientOptions]
            && r.value.0.objects[extra] == h.objects[extra]
  {
  }
}

=== FILE: storage_api_token.dfy ===
/** The read-only view of a verified token (src/StorageApiToken.php): the
    token-info record returned by the token-verification call plus the raw
    token string. Every query is a total function of the record. */
module Tokens {
  import opened Outcome
  import opened Php

  datatype StorageApiToken = StorageApiToken(tokenInfo: seq<Entry>, tokenValue: string)

  /** `getTokenInfo`: the verification record the token was built from. */
  function GetTokenInfo(t: StorageApiToken): (r: seq<Entry>)
    ensures New(r, t.tokenValue) == t
  {
    t.tokenInfo
  }

  /** `getTokenValue`: the token string the token was built from. */
  function GetTokenValue(t: StorageApiToken): (r: string)
    ensures New(t.tokenInfo, r) == t
  {
    t.tokenValue
  }

  /** `new StorageApiToken($tokenInfo, $tokenValue)`. */
  function New(tokenInfo: seq<Entry>, tokenValue: string): (t: StorageApiToken)
    ensures t.tokenInfo == tokenInfo && t.tokenValue == tokenValue
  {
    StorageApiToken(tokenInfo, tokenValue)
  }

  /** The getters return the constructor's inputs unchanged. */
  lemma {:induction false} GettersReturnConstructorInputs(tokenInfo: seq<Entry>, tokenValue: string)
    ensures GetTokenInfo(New(tokenInfo, tokenValue)) == tokenInfo
    ensures GetTokenValue(New(tokenInfo, tokenValue)) == tokenValue
  {
  }

  /** `$tokenInfo['owner']` (null when absent). */
  function Owner(t: StorageApiToken): Option<Value>
  {
    Lookup(t.tokenInfo, "owner")
  }

  /** `(string)` applied to an id looked up with `?? null`: integer ids are
      rendered in decimal, string ids are returned as they are, a missing
      id gives "". */
  function IdString(id: Option<Value>): (r: string)
    ensures id.None? ==> r == ""
    ensures forall s :: id == Some(Str(s)) ==> r == s
    ensures forall n: nat :: id == Some(Int(n)) ==>
              CtypeDigit(r) && ParseDigits(r) == n && (n == 0 ==> r == "0") && (n > 0 ==> r[0] != '0')
  {
    if id.Some? && id.value.Int? && id.value.i >= 0 then ParseNatToString(id.value.i); ToStr(id.value)
    else ToStr(if id.Some? then id.value else Null)
  }

  /** Integer ids render in canonical decimal, as PHP's cast does. */
  lemma IntegerIdExamples()
    ensures IdString(Some(Int(123))) == "123"
    ensures IdString(Some(Int(456))) == "456"
    ensures IdString(Some(Int(0))) == "0"
  {
  }

  /** `getTokenId`: the token's own id as a string. */
  function GetTokenId(t: StorageApiToken): (r: string)
    ensures Lookup(t.tokenInfo, "id").None? ==> r == ""
    ensures forall s :: Lookup(t.tokenInfo, "id") == Some(Str(s)) ==> r == s
    ensures forall n: nat :: Lookup(t.tokenInfo, "id") == Some(Int(n)) ==>
              CtypeDigit(r) && ParseDigits(r) == n && (n == 0 ==> r == "0") && (n > 0 ==> r[0] != '0')
  {
    IdString(Lookup(t.tokenInfo, "id"))
  }

  /** `getProjectId`: the owning project's id as a string. */
  function GetProjectId(t: StorageApiToken): (r: string)
    ensures At(Owner(t), "id").None? ==> r == ""
    ensures forall s :: At(Owner(t), "id") == Some(Str(s)) ==> r == s
    ensures forall n: nat :: At(Owner(t), "id") == Some(Int(n)) ==>
              CtypeDigit(r) && ParseDigits(r) == n && (n == 0 ==> r == "0") && (n > 0 ==> r[0] != '0')
  {
    IdString(At(Owner(t), "id"))
  }

  /** `$tokenInfo['owner']['features']`: the values of that array. None
      stands for the TypeError PHP raises when it is missing or not an
      array (the method is declared to return an array). */
  function GetFeatures(t: StorageApiToken): (r: Option<seq<Value>>)
    ensures r.Some? <==> At(Owner(t), "features").Some? && At(Owner(t), "features").value.Arr?
    ensures r.Some? ==> |r.value| == |At(Owner(t), "features").value.entries|
    ensures r.Some? ==> forall i :: 0 <= i < |r.value| ==> r.value[i] == At(Owner(t), "features").value.entries[i].val
  {
    var features := At(Owner(t), "features");
    if features.Some? && features.value.Arr? then Some(Values(features.value.entries)) else None
  }

  /** `in_array($feature, $features, true)`: strict comparison, so only the
      string `feature` itself matches (never an integer or `true`). None is
      the TypeError of GetFeatures. */
  method HasFeature(t: StorageApiToken, feature: string) returns (r: Option<bool>)
    ensures r.None? <==> GetFeatures(t).None?
    ensures r == Some(true) <==> GetFeatures(t).Some? && Str(feature) in GetFeatures(t).value
  {
    var features := GetFeatures(t);
    if features.None? {
      return None;
    }
    var values := features.value;
    var found := false;
    var i := 0;
    while i < |values| && !found
      invariant 0 <= i <= |values|
      invariant found <==> Str(feature) in values[..i]
    {
      found := values[i] == Str(feature);
      i := i + 1;
    }
    assert !found ==> values[..i] == values;
    return Some(found);
  }

  /** `$tokenInfo['admin']['role'] ?? null`: the role stored in the first
      "admin" entry when that entry is an array with a non-null first "role"
      entry, null otherwise. */
  function GetRole(t: StorageApiToken): (r: Option<Value>)
    ensures (forall i :: 0 <= i < |t.tokenInfo| ==> t.tokenInfo[i].key != "admin") ==> r.None?
    ensures forall i :: FirstWith(t.tokenInfo, "admin", i) && !t.tokenInfo[i].val.Arr? ==> r.None?
    ensures forall i, j :: FirstWith(t.tokenInfo, "admin", i) && t.tokenInfo[i].val.Arr?
                           && FirstWith(t.tokenInfo[i].val.entries, "role", j) ==>
              r == (if t.tokenInfo[i].val.entries[j].val == Null then None else Some(t.tokenInfo[i].val.entries[j].val))
    ensures r.Some? ==> exists i, j :: FirstWith(t.tokenInfo, "admin", i) && t.tokenInfo[i].val.Arr?
                                       && FirstWith(t.tokenInfo[i].val.entries, "role", j)
                                       && r == Some(t.tokenInfo[i].val.entries[j].val)
  {
    At(Lookup(t.tokenInfo, "admin"), "role")
  }

  /** `[$role]` when the role is set and not empty(), `[]` otherwise. */
  function GetRoles(t: StorageApiToken): (r: seq<Value>)
    ensures |r| <= 1
    ensures |r| == 1 <==> GetRole(t).Some? && !IsEmpty(GetRole(t).value)
    ensures |r| == 1 ==> GetRole(t) == Some(r[0])
  {
    var role := GetRole(t);
    if !EmptyAt(role) then [role.value] else []
  }

  /** `$tokenInfo['componentAccess'] ?? null`: null when the key is absent,
      the (possibly empty) array when it is present. */
  function GetAllowedComponents(t: StorageApiToken): (r: Option<Value>)
    ensures (forall i :: 0 <= i < |t.tokenInfo| ==> t.tokenInfo[i].key != "componentAccess") ==> r.None?
    ensures forall i :: FirstWith(t.tokenInfo, "componentAccess", i) && t.tokenInfo[i].val != Null ==> r == Some(t.tokenInfo[i].val)
    ensures r.Some? ==> r.value != Null
  {
    Lookup(t.tokenInfo, "componentAccess")
  }

  /** `!empty($tokenInfo['admin'])`. */
  function IsAdminToken(t: StorageApiToken): (r: bool)
    ensures r <==> exists i :: FirstWith(t.tokenInfo, "admin", i) && !IsEmpty(t.tokenInfo[i].val)
  {
    !EmptyAt(Lookup(t.tokenInfo, "admin"))
  }

  /** A string-typed accessor (`getProjectName`, `getTokenDesc`,
      `getFileStorageProvider`): the value when it is a string, None for
      the TypeError PHP raises otherwise. */
  function StringValue(v: Option<Value>): (r: Option<string>)
    ensures r.Some? <==> v.Some? && v.value.Str?
    ensures r.Some? ==> v == Some(Str(r.value))
  {
    if v.Some? && v.value.Str? then Some(v.value.s) else None
  }

  /** `getProjectName`: the owner's "name" when it is a string. */
  function GetProjectName(t: StorageApiToken): (r: Option<string>)
    ensures r.Some? <==> At(Owner(t), "name").Some? && At(Owner(t), "name").value.Str?
    ensures r.Some? ==> At(Owner(t), "name") == Some(Str(r.value))
  {
    StringValue(At(Owner(t), "name"))
  }

  /** `getTokenDesc`: the record's "description" when it is a string. */
  function GetTokenDesc(t: StorageApiToken): (r: Option<string>)
    ensures r.Some? <==> exists i :: FirstWith(t.tokenInfo, "description", i) && t.tokenInfo[i].val.Str?
    ensures forall i :: FirstWith(t.tokenInfo, "description", i) && t.tokenInfo[i].val.Str? ==>
              r == Some(t.tokenInfo[i].val.s)
  {
    StringValue(Lookup(t.tokenInfo, "description"))
  }

  /** `getFileStorageProvider`: the owner's "fileStorageProvider" when it is
      a string. */
  function GetFileStorageProvider(t: StorageApiToken): (r: Option<string>)
    ensures r.Some? <==> At(Owner(t), "fileStorageProvider").Some? && At(Owner(t), "fileStorageProvider").value.Str?
    ensures r.Some? ==> At(Owner(t), "fileStorageProvider") == Some(Str(r.value))
  {
    StringValue(At(Owner(t), "fileStorageProvider"))
  }

  // ---------------------------------------------------------------------
  // Permissions

  predicate AsciiLetter(c: char)
  {
    'a' <= c <= 'z' || 'A' <= c <= 'Z'
  }

  predicate Letters(s: string)
  {
    |s| > 0 && forall i :: 0 <= i < |s| ==> AsciiLetter(s[i])
  }

  /** `preg_match('/^can[a-z]+$/ui', $key)`: "can" in any case, then one or
      more letters. Without the D modifier, `$` also matches before a final
      newline, so one trailing "\n" is accepted. */
  predicate IsPermissionName(k: string)
  {
    && |k| >= 3
    && (k[0] == 'c' || k[0] == 'C')
    && (k[1] == 'a' || k[1] == 'A')
    && (k[2] == 'n' || k[2] == 'N')
    && (Letters(k[3..]) || (k[|k| - 1] == '\n' && Letters(k[3..|k| - 1])))
  }

  /** Entry `e` is reported as a permission. */
  predicate GrantsPermission(e: Entry)
  {
    e.val == Bool(true) && IsPermissionName(e.key)
  }

  /** The keys kept by the two array_filter passes, in record order. */
  function Permissions(entries: seq<Entry>): seq<string>
  {
    if |entries| == 0 then []
    else Permissions(entries[..|entries| - 1])
         + (if GrantsPermission(entries[|entries| - 1]) then [entries[|entries| - 1].key] else [])
  }

  /** A key is reported iff some entry with that key holds exactly `true`
      and the key has the permission shape. */
  lemma {:induction false} PermissionsMembership(entries: seq<Entry>, k: string)
    ensures k in Permissions(entries) <==> exists i :: 0 <= i < |entries| && entries[i].key == k && GrantsPermission(entries[i])
  {
    if |entries| > 0 {
      var prefix := entries[..|entries| - 1];
      PermissionsMembership(prefix, k);
      if exists i :: 0 <= i < |prefix| && prefix[i].key == k && GrantsPermission(prefix[i]) {
        var i :| 0 <= i < |prefix| && prefix[i].key == k && GrantsPermission(prefix[i]);
        assert entries[i] == prefix[i];
      }
      if exists i :: 0 <= i < |entries| && entries[i].key == k && GrantsPermission(entries[i]) {
        var i :| 0 <= i < |entries| && entries[i].key == k && GrantsPermission(entries[i]);
        if i < |entries| - 1 {
          assert prefix[i] == entries[i];
        }
      }
    }
  }

  /** `getPermissions`: one pass over the record keeping the keys whose value
      is `true` and whose name has the permission shape. */
  method GetPermissions(t: StorageApiToken) returns (r: seq<string>)
    ensures r == Permissions(t.tokenInfo)
    ensures forall k :: k in r ==> IsPermissionName(k)
  {
    var entries := t.tokenInfo;
    r := [];
    var i := 0;
    while i < |entries|
      invariant 0 <= i <= |entries|
      invariant r == Permissions(entries[..i])
    {
      assert entries[..i + 1][..i] == entries[..i];
      if entries[i].val == Bool(true) && IsPermissionName(entries[i].key) {
        r := r + [entries[i].key];
      }
      i := i + 1;
    }
    assert entries[..i] == entries;
    forall k | k in r ensures IsPermissionName(k) {
      PermissionsMembership(entries, k);
    }
  }

  /** The shapes the regular expression accepts and rejects. */
  lemma PermissionNameExamples()
    ensures IsPermissionName("canManageBuckets")
    ensures IsPermissionName("CANread")
    ensures IsPermissionName("canRead\n")
    ensures !IsPermissionName("can")
    ensures !IsPermissionName("youcanttouchthis")
    ensures !IsPermissionName("canManageBuckets\"")
    ensures !IsPermissionName("can_read")
  {
    assert "canManageBuckets"[3..] == "ManageBuckets";
    assert "CANread"[3..] == "read";
    assert "canRead\n"[3..7] == "Read";
    assert "canManageBuckets\""[3..] == "ManageBuckets\"";
    assert !AsciiLetter("canManageBuckets\""[16]);
    assert "canManageBuckets\""[3..16] == "ManageBuckets";
    assert !AsciiLetter("can_read"[3]);
    assert "can_read"[3..][0] == '_';
  }
}
